=== FILE: README.md ===
# Swiftthrift web client: a Dafny model

This project models the decision logic of the Swiftthrift storefront's web
client (a Next.js application) and proves properties about it. The modelled
parts are:

- the cart page's selection ledger, total, checkout guard and checkout;
- the products page's add-to-cart flow and its cart resolution: direct lookup,
  then a scan of all carts, then creation;
- the products page's product-list normalisation and wishlist heart toggle;
- the wishlist page's load and remove;
- the admin console's paid-order join, form validation and sign-in;
- the login page's sign-up and log-in;
- the orders page's payment banner, token gate, orders fetch and display rules;
- the payment-success redirect;
- the per-page image-URL normalisers.

Each page handler becomes a pure function. Backend replies are inputs of type
`Response<T>`: either `Ok(body)` or `Err(Failure(message, dataText,
dataMessage))`, where the failure fields are `error.message`,
`error.response.data` as text and `error.response.data.message`. What a
handler does to the world is returned as data:

- the requests it issues, in order;
- effects: `Navigate(path)`, `Alert(text)` and `Dispatch(event)`;
- the new page state.

JavaScript falsiness is written out. An id is `Option<int>`, and `Some(0)` is
falsy (`TruthyId`). An absent string is `""`. Prices are integer centavos.

Modules follow the source files:

| module | file | source |
|---|---|---|
| `Wrappers` | `wrappers.dfy` | shared datatypes and the first-match search |
| `Strings` | `strings.dfy` | string predicates |
| `ImageUrls` | `image_urls.dfy` | the `getImageUrl` helpers of five files |
| `CartPage` | `cart_page.dfy` | `app/cart/page.jsx` |
| `CartResolution` | `cart_resolution.dfy` | `handleAddToCart` |
| `ProductsCatalog` | `products_catalog.dfy` | `fetchProducts` |
| `Wishlist` | `wishlist.dfy` | wishlist toggle, load and remove |
| `AdminPage` | `admin_page.dfy` | `app/admin/page.jsx` |
| `LoginPage` | `login_page.dfy` | `app/login/page.jsx` |
| `OrdersPage` | `orders_page.dfy` | `app/orders/page.jsx` |
| `PaymentRedirect` | `payment_redirect.dfy` | `app/payment-success/page.jsx` and `searchParams.get` |

Where the intended behaviour and the code disagree, the model follows the code:

- **Stale selection ids are never pruned.** Refreshing the cart items leaves
  `selectedItems` as it was. A stale id adds nothing to the total
  (`CartPage.TotalIgnoresStale`). It does count toward the length test of
  select-all (`CartPage.SelectAllStaleClears`) and toward the non-empty test
  of checkout.
- **A resolved cart may have no usable id.** Only the direct lookup checks for
  a truthy `cartId`. A cart found by the scan or returned by creation is used
  as is, and its `cartId` goes into the item request unchecked.
- **Checkout accepts a selection of stale ids.** The non-empty check is on
  the selection list, not on the selected items, so a selection holding only
  stale ids passes the guard and requests an amount of 0.

## Model

| member | source | states |
|---|---|---|
| ImageUrls.Absolutize | frontend-web/app/cart/page.jsx:167-173 | Falsy input gives the placeholder. A strictly absolute URL passes through. Anything else is appended to the host. A leading `/` is added exactly when slash repair is on and the URL lacks one. |
| ImageUrls.CartImageUrl | frontend-web/app/cart/page.jsx:167-173 | Placeholder, pass-through, or cart host + URL, with no slash repair. |
| ImageUrls.CatalogImageUrl | frontend-web/app/products/page.jsx:224-232 | The same three cases with the catalogue host. |
| ImageUrls.WishlistImageUrl | frontend-web/app/wishlist/page.jsx:78-93 | A relative URL gets a `/` when it lacks one. Every non-empty input yields a URL starting with `http`. |
| ImageUrls.LocalImageUrl | frontend-web/components/ProductsPage.js:34-49 | Slash repair with the local host. A relative URL that starts with `/` is appended unchanged; one that does not gets a `/` first. |
| ImageUrls.OrderItemImageUrl | frontend-web/app/orders/page.jsx:154-156 | Loose `http` prefix test. Otherwise the catalogue host is prepended. There is no placeholder case. |
| ImageUrls.AbsolutizeStartsWithHttp | frontend-web/app/products/page.jsx:224-232 | With an `http` host, every non-empty input normalises to an `http` URL. |
| ImageUrls.AbsolutizeIdempotent | frontend-web/app/products/page.jsx:224-232 | Normalising twice equals normalising once for non-empty input, for any absolute host, with or without repair. |
| ImageUrls.LocalImageUrlIdempotent | frontend-web/components/ProductsPage.js:34-49 | Idempotent on non-empty input. The placeholder is not a fixed point: it becomes local host + `/placeholder.svg`. |
| ImageUrls.WishlistImageUrlIdempotent | frontend-web/app/wishlist/page.jsx:78-93 | Idempotent on non-empty input. The placeholder maps to cart host + `/placeholder.svg`. |
| ImageUrls.RepairMatters | frontend-web/app/wishlist/page.jsx:86-92 | A bare file name gives different URLs in the cart and wishlist variants. |
| ImageUrls.LoosePrefixKeepsHttpx | frontend-web/app/orders/page.jsx:154-156 | The loose test keeps `httpx/...`, where the strict test prepends the host. |
| CartPage.Ids | frontend-web/app/cart/page.jsx:105 | Same length as the items, and each entry is the item's `cartItemId`. |
| CartPage.RemoveAll | frontend-web/app/cart/page.jsx:96 | Removes every occurrence of the id. Every other id keeps its multiplicity. |
| CartPage.Toggle | frontend-web/app/cart/page.jsx:93-99 | A selected id is dropped everywhere. An unselected id is appended at the end. Only that id's membership changes. |
| CartPage.ToggleTwiceMembership | frontend-web/app/cart/page.jsx:93-99 | Toggling twice restores membership. |
| CartPage.ToggleTwiceReorders | frontend-web/app/cart/page.jsx:93-99 | Toggling twice does not restore the list: it reorders and de-duplicates. |
| CartPage.SelectAll | frontend-web/app/cart/page.jsx:101-107 | Clears when the selection is as long as the item list. Otherwise it selects every id in cart order. |
| CartPage.SelectAllTwice | frontend-web/app/cart/page.jsx:101-107 | From a partial selection, pressing once selects every item and pressing again clears. |
| CartPage.SelectAllStaleClears | frontend-web/app/cart/page.jsx:102-103 | A stale selection of matching length is cleared, although no loaded item is selected. |
| CartPage.Selected | frontend-web/app/cart/page.jsx:110-111 | An item is kept exactly when it is loaded and its id is selected, and it is kept as often as it occurs in the cart (a multiset filter). |
| CartPage.Total | frontend-web/app/cart/page.jsx:110-112 | The displayed total: the sum of the prices of the selected items, missing prices as 0. Its properties are the Total lemmas below. |
| CartPage.TotalDependsOnMembership | frontend-web/app/cart/page.jsx:110-112 | Selections with the same members have the same total. |
| CartPage.TotalEmpty | frontend-web/app/cart/page.jsx:110-112 | An empty selection totals 0. |
| CartPage.TotalIgnoresStale | frontend-web/app/cart/page.jsx:110-112 | An id matching no loaded item adds nothing to the total. |
| CartPage.TotalToggleOn | frontend-web/app/cart/page.jsx:110-112 | Selecting an id adds exactly the prices of the items carrying it. |
| CartPage.TotalAllSelected | frontend-web/app/cart/page.jsx:110-112 | With every item selected, the total is the whole cart's sum. |
| CartPage.Checkout | frontend-web/app/cart/page.jsx:115-156 | Refused with no request iff the selection list is empty. Otherwise the intent request carries the user, the total of the selection and `php`. The outcome is rejected iff that request fails, and a redirect iff the reply has a non-empty session reference, which is passed through unchanged. |
| CartPage.CheckoutAlert | frontend-web/app/cart/page.jsx:115-156 | Every outcome except the redirect raises an alert. |
| CartPage.CheckoutAfterSelectAll | frontend-web/app/cart/page.jsx:101-124 | Checkout after select-all charges the sum of the whole cart. |
| Wrappers.FirstIndex | frontend-web/app/products/page.jsx:178-180 | The index of the first element satisfying the test, or proof that none does. |
| CartResolution.FirstOwned | frontend-web/app/products/page.jsx:178-180 | Finds the first cart owned by the user, or proves there is none. |
| CartResolution.Classify | frontend-web/app/products/page.jsx:199-204 | "User already has a cart." is classified as the access error. Anything else means the cart is unavailable. |
| CartResolution.DirectUsable | frontend-web/app/products/page.jsx:167 | The by-user lookup answered with a cart whose `cartId` is truthy. |
| CartResolution.Resolve | frontend-web/app/products/page.jsx:157-206 | Each outcome holds iff its conditions hold: direct lookup, then first owned cart of the scan, then created cart, then classification. A scanned cart is the first cart in the list that the user owns. |
| CartResolution.ResolutionRequests | frontend-web/app/products/page.jsx:160-196 | The by-user lookup always comes first. There is no scan or create after a usable lookup. The scan is issued second whenever the lookup is unusable. Create-cart is issued iff both lookups fail, with total price 0. No item write is among these requests. |
| CartResolution.AddToCart | frontend-web/app/products/page.jsx:150-222 | Signed out: no request, only navigation to `/login`. Signed in: the lookup comes first; no scan or create follows a usable lookup; create-cart is issued iff both lookups fail, with total 0; the last request is the item at the product's price for the resolved cart id, and an item write is issued iff the cart was resolved. `cartUpdated` is dispatched iff resolution and the item write succeed. A successful write dispatches `cartUpdated` and then navigates to `/cart`. A failed write raises one alert with the error message, or `Failed to add to cart.` when there is none. The access error raises two alerts, an unavailable cart one. |
| CartResolution.CreateOnlyWhenBothLookupsFail | frontend-web/app/products/page.jsx:186-196 | A create-cart request implies the lookup was unusable and no listed cart is the user's. |
| CartResolution.PriceSnapshot | frontend-web/app/products/page.jsx:209-213 | The item carries the product's price at call time. Every other request is independent of it. |
| CartResolution.NoNotificationOnFailure | frontend-web/app/products/page.jsx:209-221 | On a failed resolution or a failed item write, no `cartUpdated` and no navigation happen. |
| CartResolution.FirstPurchaseScenario | frontend-web/app/products/page.jsx:150-222 | A user without a cart adding a 150.00 product creates the cart, then the item at 15000 centavos. Checking it out charges 15000. |
| ProductsCatalog.TrimStart | frontend-web/app/products/page.jsx:37 | Strips exactly the leading JavaScript white space. |
| ProductsCatalog.Values | frontend-web/app/products/page.jsx:39 | The object's values in key order. |
| ProductsCatalog.NormalizeProducts | frontend-web/app/products/page.jsx:26-57 | An array is kept. An object with a numeric key gives its values. Any other object is wrapped. Another type gives the invalid-format error; a failure gives the load error; both leave an empty list. |
| ProductsCatalog.IndexedRoundTrip | frontend-web/app/products/page.jsx:35-40 | A non-empty list serialised as an index-keyed object normalises back to itself. |
| ProductsCatalog.NumericKey | frontend-web/app/products/page.jsx:37 | `!isNaN(parseInt(key))`: after leading white space and an optional sign, a decimal digit, or `0x` followed by a hex digit. |
| ProductsCatalog.NumericKeyAccepts | frontend-web/app/products/page.jsx:37 | `parseInt` accepts leading space and trailing junk. |
| ProductsCatalog.NumericKeySigned | frontend-web/app/products/page.jsx:37 | `parseInt` accepts a sign. |
| ProductsCatalog.NumericKeyRejectsHexPrefix | frontend-web/app/products/page.jsx:37 | `parseInt` rejects a bare `0x`. |
| ProductsCatalog.NumericKeyRejectsName | frontend-web/app/products/page.jsx:37 | `parseInt` rejects a name. |
| ProductsCatalog.HexPrefixKeyIsSingleton | frontend-web/app/products/page.jsx:37-43 | An object keyed only by `0x` is wrapped as one product. |
| Wishlist.Or | frontend-web/app/wishlist/page.jsx:42 | JavaScript `a \|\| b` on ids. |
| Wishlist.IdPreference | frontend-web/app/products/page.jsx:90 | The products page prefers `id` and the wishlist page prefers `wishlistId`. They pick differently iff a record has two different truthy ids; with one truthy id both pick it. |
| Wishlist.ProductIds | frontend-web/app/products/page.jsx:134 | The product id of each item, in order. |
| Wishlist.FirstItemFor | frontend-web/app/products/page.jsx:124 | The first item for the product, or proof there is none. |
| Wishlist.Mutate | frontend-web/app/products/page.jsx:113-130 | An absent product is appended. A present one loses exactly its first backend item, or nothing if none matches. |
| Wishlist.Toggle | frontend-web/app/products/page.jsx:108-142 | Nothing happens without a truthy wishlist id. On success the backend list is mutated, the membership becomes its refetched product ids and `wishlistUpdated` is dispatched. A failed mutation changes nothing and alerts; a failed refetch keeps the old membership and alerts. |
| Wishlist.ToggleFlips | frontend-web/app/products/page.jsx:108-142 | With the membership in sync and the product listed at most once, a toggle flips that product and leaves every other product unchanged. |
| Wishlist.DuplicateSurvivesRemoval | frontend-web/app/products/page.jsx:124-129 | A product listed twice is still present after a removal toggle. |
| Wishlist.FetchWishlist | frontend-web/app/wishlist/page.jsx:36-56 | The by-user lookup comes first. An empty or null listing gives an empty list and no further request; otherwise the first wishlist's items are requested by its preferred id. The list is replaced iff no request failed, and otherwise the load error is set. After a successful item request the list is exactly that reply. A failed lookup issues nothing after the lookup itself. |
| Wishlist.Remove | frontend-web/app/wishlist/page.jsx:58-69 | Always one delete request. A refetch follows iff the delete succeeded and a user is signed in. On failure there is an alert instead. |
| Wishlist.RemoveThenRefetch | frontend-web/app/wishlist/page.jsx:58-69 | A successful removal refetches the signed-in user's wishlist. Once the backend has deleted the item, the page shows exactly the earlier items whose key differs from the removed one. |
| AdminPage.JoinAt | frontend-web/app/admin/page.jsx:68-92 | Joining the orders in a given completion order yields at most one entry per index. |
| AdminPage.Join | frontend-web/app/admin/page.jsx:68-92 | The paid list in fetch order has at most one entry per order. |
| AdminPage.FirstPayment | frontend-web/app/admin/page.jsx:79 | The first payment referring to the order, or proof there is none. |
| AdminPage.PaidEntry | frontend-web/app/admin/page.jsx:73-87 | An order is admitted iff its lookup succeeded with an array whose first payment for the order is PAID. The entry carries that payment. |
| AdminPage.JoinAtPermutation | frontend-web/app/admin/page.jsx:68-92 | Any two orders of visiting the same indices give the same multiset of paid orders. |
| AdminPage.PaidListMembership | frontend-web/app/admin/page.jsx:68-92 | A paid order is in the list iff its order is fetched, its lookup succeeded and its first matching payment is PAID. |
| AdminPage.PaidListSubMultiset | frontend-web/app/admin/page.jsx:68-92 | The paid list is a sub-multiset of the fetched orders. |
| AdminPage.FailedLookupIsolated | frontend-web/app/admin/page.jsx:88-90 | A failed lookup drops only its own order. Every other order is joined as before. |
| AdminPage.FetchOrders | frontend-web/app/admin/page.jsx:56-102 | Loading ends. A failed listing keeps the old orders and sets the error. A successful one clears the error and shows the paid join, up to completion order. |
| AdminPage.ProductFormComplete | frontend-web/app/admin/page.jsx:129 | All of name, description, price and category are non-empty. |
| AdminPage.AddProduct | frontend-web/app/admin/page.jsx:126-163 | A request is issued iff all four fields are filled. Success clears the form, alerts "Product added successfully!" and then dispatches `productsUpdated`. Failure shows the body text or else the message. |
| AdminPage.AddCategory | frontend-web/app/admin/page.jsx:165-180 | A request is issued iff a name is given. Success clears the name and alerts "Category added successfully!". Failure shows the body's message or else the error message, with no effect. |
| AdminPage.SignIn | frontend-web/app/admin/page.jsx:111-124 | Authenticated afterwards iff already authenticated or the reply is status 200. The error is set iff the request failed. |
| AdminPage.ResubmitAfterSuccessIsBlocked | frontend-web/app/admin/page.jsx:126-180 | Submitting again after a success issues no second request. |
| AdminPage.SignInMonotone | frontend-web/app/admin/page.jsx:111-124 | Sign-in never signs out. Only 200 signs in. |
| LoginPage.Signup | frontend-web/app/login/page.jsx:59-109 | A request is issued iff the passwords match and the phone is exactly 11 ASCII digits; the mismatch is checked first. The form is emptied and the success message set iff the sign-up succeeded; then the error is cleared and the message is exactly "Signup successful! You can now log in.". A failed reply shows its text; no reply gives the generic error. |
| LoginPage.MismatchReportedFirst | frontend-web/app/login/page.jsx:64-73 | With both checks failing, the password mismatch is reported. |
| LoginPage.ResubmitAfterSuccessIsRejected | frontend-web/app/login/page.jsx:88-101 | The emptied form fails the phone check, so no second account is requested. |
| LoginPage.ValidPhone | frontend-web/app/login/page.jsx:70 | `/^\d{11}$/`: exactly eleven ASCII digits. |
| LoginPage.PhoneExamples | frontend-web/app/login/page.jsx:70 | Eleven digits pass. Ten digits, or eleven characters with a dash, fail. |
| LoginPage.Login | frontend-web/app/login/page.jsx:26-57 | An ok reply stores the session, goes to `/products`, clears the error and shows "Login successful!". A failed reply shows its text. No reply gives the generic error. The success banner is empty on every path but the ok one. |
| OrdersPage.Banner | frontend-web/app/orders/page.jsx:18-24 | The banner turns on iff the `session_id` parameter is non-empty, and that id is recorded verbatim. Nothing else changes. |
| OrdersPage.MountAsWritten | frontend-web/app/orders/page.jsx:18-44 | The banner is read before the token gate. Without a token the page navigates to `/login` and fetches nothing. A fetch for the stored user starts iff there is a token and a user record. Off the corrupt path the page is exactly the banner update, so error, loading and orders are unchanged. A corrupt record only adds the user-data error and leaves loading as it was. |
| OrdersPage.Mount | frontend-web/app/orders/page.jsx:18-44 | The same mount, except that a corrupt record also ends loading. It is identical on every other path. |
| OrdersPage.CorruptUserErrorHidden | frontend-web/app/orders/page.jsx:40-43 | As written, the corrupt-record error is set but never visible. |
| OrdersPage.NoUserKeepsSpinner | frontend-web/app/orders/page.jsx:33-39 | With a token but no stored user, nothing is fetched and loading stays set, so the page shows the spinner and no message. |
| OrdersPage.CorruptUserErrorShown | frontend-web/app/orders/page.jsx:40-43 | With the correction, that error is visible. |
| OrdersPage.FetchOrders | frontend-web/app/orders/page.jsx:46-60 | Loading ends. A null body becomes an empty list. A failure keeps the old orders and sets the error. The banner is untouched. |
| OrdersPage.MountThenFetch | frontend-web/app/orders/page.jsx:18-60 | A signed-in mount fetches that user's orders. The banner survives the fetch, and an error shows iff the fetch failed. |
| OrdersPage.StatusLabel | frontend-web/app/orders/page.jsx:134 | Never empty. A present status is shown as is, and a missing one as `Processing`. |
| OrdersPage.StatusLabelCollapses | frontend-web/app/orders/page.jsx:134 | Idempotent. A missing status and `Processing` are shown alike, and no other status is. |
| OrdersPage.ItemImage | frontend-web/app/orders/page.jsx:152-156 | No image without URLs. Otherwise the first URL goes through the loose test. |
| OrdersPage.ItemImageIsHttp | frontend-web/app/orders/page.jsx:152-156 | Every displayed item image starts with `http`. Only the first URL matters. |
| PaymentRedirect.RedirectTarget | frontend-web/app/payment-success/page.jsx:12-19 | Always under `/orders`. A non-empty id is appended as `?session_id=` + id. |
| PaymentRedirect.Land | frontend-web/app/payment-success/page.jsx:12-19 | Exactly one navigation, to the session-specific target under `/orders`. |
| PaymentRedirect.IndexOf | frontend-web/app/orders/page.jsx:20 | The first index of a character, or proof it is absent. |
| PaymentRedirect.Split | frontend-web/app/orders/page.jsx:20 | At least one piece; no piece holds the separator; joining the pieces with it gives back the input. |
| PaymentRedirect.KeyOf | frontend-web/app/orders/page.jsx:20 | The key holds no `=`. It is the whole pair without `=`, else the prefix up to the first `=`. |
| PaymentRedirect.ValueOf | frontend-web/app/orders/page.jsx:20 | Empty without `=`. Otherwise key, `=` and value rebuild the pair. |
| PaymentRedirect.Find | frontend-web/app/orders/page.jsx:20 | Nothing iff no pair has the key. Otherwise the value of the first pair with the key: every earlier pair has another key. |
| PaymentRedirect.Query | frontend-web/app/orders/page.jsx:20 | There is a query iff the URL has a `?` and no `#` comes before the first one. It is the longest run of the URL without `#` that starts right after that `?`. |
| PaymentRedirect.GetParam | frontend-web/app/orders/page.jsx:20 | Nothing without a `?`, or when a `#` comes before the first `?`. Otherwise the value of the first `&`-separated pair of the query with the key, or nothing when no pair has it. |
| PaymentRedirect.FragmentQueryIgnored | frontend-web/app/orders/page.jsx:20 | A `?` after the `#` belongs to the fragment, so no parameter is read. |
| PaymentRedirect.FirstPairWins | frontend-web/app/orders/page.jsx:20 | A key given twice is answered from its first pair. |
| PaymentRedirect.SessionIdRoundTrip | frontend-web/app/payment-success/page.jsx:15-16 | The orders page reads back exactly the id it was sent, for non-empty unreserved ids. |
| PaymentRedirect.NoSessionNoParam | frontend-web/app/payment-success/page.jsx:17-18 | Without an id, the target carries no parameter. |
| PaymentRedirect.BannerAfterPayment | frontend-web/app/payment-success/page.jsx:12-19 | Landing then mounting the orders page shows the banner iff the id is non-empty, and it shows that id. |
| PaymentRedirect.UnencodedIdIsCut | frontend-web/app/payment-success/page.jsx:16 | An id containing `&` arrives truncated, because it is not encoded. |

## Findings

| source | as written | input that shows it | evidently intended | confidence | as-written member | corrected member |
|---|---|---|---|---|---|---|
| frontend-web/app/orders/page.jsx:40-43 | The catch branch for an unparsable stored user sets the error but not `loading`. No fetch starts, so `loading` stays true and the page renders only the spinner. A token with no stored user record leaves the spinner in the same way (`OrdersPage.NoUserKeepsSpinner`), though without a message to hide. | A token plus a `user` entry that `JSON.parse` rejects, on first mount. | The message "Failed to load user data. Please try logging in again." is shown, so loading must end on that path. | medium, not executed | OrdersPage.CorruptUserErrorHidden | OrdersPage.NoUserKeepsSpinner | frontend-web/app/orders/page.jsx:33-39 | With a token but no stored user, nothing is fetched and loading stays set, so the page shows the spinner and no message. |
| OrdersPage.CorruptUserErrorShown |

`OrdersPage.MountAsWritten` models the code as written. `OrdersPage.Mount` is the corrected definition, and `PaymentRedirect.BannerAfterPayment` uses it.

## Left out

- CartPage.Checkout: the amount is the centavo total itself. The `Math.round(total * 100)` conversion from floating-point pesos is not modelled, because prices are integers here.
- CartPage.Checkout: loading Stripe.js and `redirectToCheckout` are outside the model. The redirect outcome stops at handing over the session reference, and the "Payment error" alert is not modelled.
- CartPage.Checkout: a signed-out user (`user.userId` on null) throws. That lands in the same alert as a rejected intent and is not a separate case.
- CartResolution.AddToCart: `res.data.cartItems || []` and the `fetchCart` refresh triggered by `cartUpdated` are not modelled. Neither is the busy indicator `addToCartLoading`.
- ProductsCatalog.NormalizeProducts: `parseInt` is modelled only as far as `isNaN` depends on it. Numbers are integers; JSON floats are not modelled.
- ProductsCatalog.NormalizeProducts: the product list is modelled but not the products' fields. The previous error message is kept by `None`, as in the code.
- Wishlist.Toggle: the two pages delete by different fields: the products page by `item.wishlistid || item.id` (products/page.jsx:126) and the wishlist page by `item.wishlistItemId || item.id` (wishlist/page.jsx:154). The model abstracts both into the item's `key`. The 200 ms heart animation is not modelled. Neither is the products page's lazy wishlist creation (products/page.jsx:84-106), which is outside the handlers modelled here.
- Wishlist.FetchWishlist: the wishlist page's records and items are taken as already decoded. A failure while decoding a malformed body is an `Err`.
- AdminPage.AddProduct: the FormData payload, the file parts, `parseFloat`/`parseInt` of price and category, and the `condition` field are not modelled. Validation looks only at the four strings.
- AdminPage.AddCategory: the category-list refresh after success is not modelled.
- AdminPage.FetchOrders: the result is stated up to completion order, with `arrival` standing for `Promise.all` completion. The date formatting of the orders table is not modelled.
- LoginPage.Login: `localStorage` writes are the returned `stored` session. `JSON.stringify` of the user is not modelled.
- OrdersPage.FetchOrders: the order cards' date, totals formatting and item names are display-only and not modelled.
- PaymentRedirect.GetParam: `URLSearchParams` percent-decoding and `+`-as-space are not modelled. The round trip is stated for ids of unreserved characters only.
- Browser hooks, `console` logging, `localStorage`, clocks and the network are replaced by inputs and returned data throughout. The logout handlers are not modelled. Neither are the context pages (about, settings, home, layout) or the `WishlistButton` component.

=== FILE: admin_page.dfy ===
/** The admin console (frontend-web/app/admin/page.jsx): the paid-order join
    of the orders tab, the add-product and add-category forms, and sign-in.

    The orders tab fetches every order, then looks up payments for each order
    concurrently and keeps the orders whose first matching payment is PAID.
    The lookups finish in an order the page does not control, and each
    finished lookup pushes its order onto the result; that completion order
    is the input `arrival`, a permutation of the order indices.
 */
module AdminPage {
  import opened Wrappers

  datatype Order = Order(orderId: int, userId: Option<int>)

  /** A payment: `p.order?.orderId` and `p.status`. */
  datatype Payment = Payment(orderRef: Option<int>, status: string)

  /** An order of the paid list, carrying the payment that admitted it. */
  datatype PaidOrder = PaidOrder(order: Order, payment: Payment)

  /** A payment lookup's reply body: `None` when it is not an array. */
  type Lookup = Response<Option<seq<Payment>>>

  /** `payments.find(p => p.order?.orderId === orderId)`, as an index. */
  function FirstPayment(ps: seq<Payment>, orderId: int): (k: Option<nat>)
    ensures k.Some? ==> k.value < |ps| && ps[k.value].orderRef == Some(orderId)
    ensures k.Some? ==> forall j :: 0 <= j < k.value ==> ps[j].orderRef != Some(orderId)
    ensures k.None? <==> forall j :: 0 <= j < |ps| ==> ps[j].orderRef != Some(orderId)
  {
    FirstIndex(ps, (p: Payment) => p.orderRef == Some(orderId))
  }

  /** What one order's lookup contributes to the paid list. */
  function PaidEntry(o: Order, lookup: Lookup): (e: Option<PaidOrder>)
    ensures e.Some? <==>
      lookup.Ok? && lookup.body.Some? && FirstPayment(lookup.body.value, o.orderId).Some? &&
      lookup.body.value[FirstPayment(lookup.body.value, o.orderId).value].status == "PAID"
    ensures e.Some? ==>
      e.value == PaidOrder(o, lookup.body.value[FirstPayment(lookup.body.value, o.orderId).value])
  {
    match lookup
    case Err(_) => None
    case Ok(None) => None
    case Ok(Some(ps)) =>
      match FirstPayment(ps, o.orderId)
      case None => None
      case Some(k) => if ps[k].status == "PAID" then Some(PaidOrder(o, ps[k])) else None
  }

  function AsSeq(e: Option<PaidOrder>): seq<PaidOrder>
  {
    if e.Some? then [e.value] else []
  }

  predicate IndicesIn(idx: seq<nat>, n: nat)
  {
    forall k :: 0 <= k < |idx| ==> idx[k] < n
  }

  /** The paid list built by lookups completing in the order `idx`. */
  function JoinAt(orders: seq<Order>, lookups: seq<Lookup>, idx: seq<nat>): (r: seq<PaidOrder>)
    requires |lookups| == |orders| && IndicesIn(idx, |orders|)
    ensures |r| <= |idx|
  {
    if idx == [] then []
    else AsSeq(PaidEntry(orders[idx[0]], lookups[idx[0]])) + JoinAt(orders, lookups, idx[1..])
  }

  function Range(lo: nat, hi: nat): (r: seq<nat>)
    requires lo <= hi
    ensures |r| == hi - lo && forall k :: 0 <= k < |r| ==> r[k] == lo + k
  {
    seq(hi - lo, k requires 0 <= k < hi - lo => lo + k)
  }

  /** The paid list in order of the fetched orders. */
  function Join(orders: seq<Order>, lookups: seq<Lookup>): (r: seq<PaidOrder>)
    requires |lookups| == |orders|
    ensures |r| <= |orders|
  {
    JoinAt(orders, lookups, Range(0, |orders|))
  }

  lemma {:induction false} JoinAtAppend(orders: seq<Order>, lookups: seq<Lookup>, a: seq<nat>, b: seq<nat>)
    requires |lookups| == |orders| && IndicesIn(a, |orders|) && IndicesIn(b, |orders|)
    ensures IndicesIn(a + b, |orders|)
    ensures JoinAt(orders, lookups, a + b) == JoinAt(orders, lookups, a) + JoinAt(orders, lookups, b)
  {
    if a != [] {
      assert (a + b)[1..] == a[1..] + b;
      JoinAtAppend(orders, lookups, a[1..], b);
    } else {
      assert a + b == b;
    }
  }

  lemma MultisetCancel(A: multiset<nat>, B: multiset<nat>, a: nat)
    requires multiset{a} + A == multiset{a} + B
    ensures A == B
  {
    forall x
      ensures A[x] == B[x]
    {
      assert (multiset{a} + A)[x] == (multiset{a} + B)[x];
    }
  }

  /** Locates the head of `p` in its permutation `q`. */
  lemma SplitAtHead(p: seq<nat>, q: seq<nat>) returns (q1: seq<nat>, q2: seq<nat>)
    requires p != [] && multiset(p) == multiset(q)
    ensures q == q1 + [p[0]] + q2
    ensures multiset(p[1..]) == multiset(q1 + q2)
  {
    var a := p[0];
    assert p == [a] + p[1..];
    assert a in q by { assert a in multiset(q); }
    var j :| 0 <= j < |q| && q[j] == a;
    q1, q2 := q[..j], q[j + 1..];
    assert q == q1 + [a] + q2;
    assert multiset(q) == multiset{a} + multiset(q1 + q2) by {
      assert multiset(q1 + [a] + q2) == multiset(q1) + multiset{a} + multiset(q2);
    }
    MultisetCancel(multiset(p[1..]), multiset(q1 + q2), a);
  }

  lemma IndicesInParts(q1: seq<nat>, a: nat, q2: seq<nat>, n: nat)
    requires IndicesIn(q1 + [a] + q2, n)
    ensures IndicesIn(q1, n) && IndicesIn(q2, n) && a < n
  {
    var q := q1 + [a] + q2;
    assert q[|q1|] == a;
    forall k | 0 <= k < |q1|
      ensures q1[k] < n
    {
      assert q1[k] == q[k];
    }
    forall k | 0 <= k < |q2|
      ensures q2[k] < n
    {
      assert q2[k] == q[|q1| + 1 + k];
    }
  }

  lemma JoinAtAround(orders: seq<Order>, lookups: seq<Lookup>, q1: seq<nat>, a: nat, q2: seq<nat>)
    requires |lookups| == |orders| && IndicesIn(q1 + [a] + q2, |orders|)
    ensures IndicesIn(q1, |orders|) && IndicesIn(q2, |orders|) && IndicesIn(q1 + q2, |orders|)
    ensures a < |orders| && IndicesIn([a], |orders|)
    ensures multiset(JoinAt(orders, lookups, q1 + [a] + q2)) ==
      multiset(JoinAt(orders, lookups, [a])) + multiset(JoinAt(orders, lookups, q1 + q2))
  {
    IndicesInParts(q1, a, q2, |orders|);
    JoinAtAppend(orders, lookups, q1, [a]);
    JoinAtAppend(orders, lookups, q1 + [a], q2);
    JoinAtAppend(orders, lookups, q1, q2);
  }

  /** Which order the lookups complete in does not change what the paid list
      holds, only its order. */
  lemma {:induction false} JoinAtPermutation(orders: seq<Order>, lookups: seq<Lookup>, p: seq<nat>, q: seq<nat>)
    requires |lookups| == |orders| && IndicesIn(p, |orders|) && IndicesIn(q, |orders|)
    requires multiset(p) == multiset(q)
    ensures multiset(JoinAt(orders, lookups, p)) == multiset(JoinAt(orders, lookups, q))
  {
    if p != [] {
      var q1, q2 := SplitAtHead(p, q);
      JoinAtAround(orders, lookups, q1, p[0], q2);
      assert IndicesIn(p[1..], |orders|) by {
        forall k | 0 <= k < |p| - 1
          ensures p[1..][k] < |orders|
        {
          assert p[1..][k] == p[k + 1];
        }
      }
      JoinAtPermutation(orders, lookups, p[1..], q1 + q2);
      var head := JoinAt(orders, lookups, [p[0]]);
      assert head == AsSeq(PaidEntry(orders[p[0]], lookups[p[0]]));
      assert JoinAt(orders, lookups, p) == head + JoinAt(orders, lookups, p[1..]);
    }
  }

  /** An entry is in the list built from `idx` iff one of those indices
      produced it. */
  lemma {:induction false} JoinAtMembership(orders: seq<Order>, lookups: seq<Lookup>, idx: seq<nat>, x: PaidOrder)
    requires |lookups| == |orders| && IndicesIn(idx, |orders|)
    ensures x in JoinAt(orders, lookups, idx) <==>
      exists k :: 0 <= k < |idx| && PaidEntry(orders[idx[k]], lookups[idx[k]]) == Some(x)
  {
    if idx != [] {
      JoinAtMembership(orders, lookups, idx[1..], x);
      if PaidEntry(orders[idx[0]], lookups[idx[0]]) == Some(x) {
        assert x in JoinAt(orders, lookups, idx);
      }
      if exists k :: 0 <= k < |idx| && PaidEntry(orders[idx[k]], lookups[idx[k]]) == Some(x) {
        var k :| 0 <= k < |idx| && PaidEntry(orders[idx[k]], lookups[idx[k]]) == Some(x);
        if k > 0 {
          assert idx[1..][k - 1] == idx[k];
        }
      }
      if x in JoinAt(orders, lookups, idx[1..]) {
        var k :| 0 <= k < |idx| - 1 && PaidEntry(orders[idx[1..][k]], lookups[idx[1..][k]]) == Some(x);
        assert idx[k + 1] == idx[1..][k];
      }
    }
  }

  /** An order is in the paid list iff its lookup succeeded, returned an
      array, the array holds a payment for the order, and the first such
      payment is PAID; it then carries that payment. */
  lemma PaidListMembership(orders: seq<Order>, lookups: seq<Lookup>, x: PaidOrder)
    requires |lookups| == |orders|
    ensures x in Join(orders, lookups) <==>
      exists i :: 0 <= i < |orders| && x.order == orders[i] &&
        lookups[i].Ok? && lookups[i].body.Some? &&
        FirstPayment(lookups[i].body.value, orders[i].orderId).Some? &&
        x.payment == lookups[i].body.value[FirstPayment(lookups[i].body.value, orders[i].orderId).value] &&
        x.payment.status == "PAID"
  {
    var r := Range(0, |orders|);
    JoinAtMembership(orders, lookups, r, x);
    if x in Join(orders, lookups) {
      var k :| 0 <= k < |r| && PaidEntry(orders[r[k]], lookups[r[k]]) == Some(x);
      assert r[k] == k;
    }
    if exists i :: 0 <= i < |orders| && x.order == orders[i] &&
        lookups[i].Ok? && lookups[i].body.Some? &&
        FirstPayment(lookups[i].body.value, orders[i].orderId).Some? &&
        x.payment == lookups[i].body.value[FirstPayment(lookups[i].body.value, orders[i].orderId).value] &&
        x.payment.status == "PAID" {
      var i :| 0 <= i < |orders| && x.order == orders[i] &&
        lookups[i].Ok? && lookups[i].body.Some? &&
        FirstPayment(lookups[i].body.value, orders[i].orderId).Some? &&
        x.payment == lookups[i].body.value[FirstPayment(lookups[i].body.value, orders[i].orderId).value] &&
        x.payment.status == "PAID";
      assert r[i] == i;
      assert PaidEntry(orders[r[i]], lookups[r[i]]) == Some(x);
    }
  }

  function OrdersOf(ps: seq<PaidOrder>): (os: seq<Order>)
    ensures |os| == |ps| && forall k :: 0 <= k < |ps| ==> os[k] == ps[k].order
  {
    seq(|ps|, k requires 0 <= k < |ps| => ps[k].order)
  }

  function Pick(orders: seq<Order>, idx: seq<nat>): (os: seq<Order>)
    requires IndicesIn(idx, |orders|)
    ensures |os| == |idx| && forall k :: 0 <= k < |idx| ==> os[k] == orders[idx[k]]
  {
    seq(|idx|, k requires 0 <= k < |idx| => orders[idx[k]])
  }

  lemma {:induction false} JoinAtSubMultiset(orders: seq<Order>, lookups: seq<Lookup>, idx: seq<nat>)
    requires |lookups| == |orders| && IndicesIn(idx, |orders|)
    ensures multiset(OrdersOf(JoinAt(orders, lookups, idx))) <= multiset(Pick(orders, idx))
  {
    if idx != [] {
      JoinAtSubMultiset(orders, lookups, idx[1..]);
      var e := AsSeq(PaidEntry(orders[idx[0]], lookups[idx[0]]));
      var rest := JoinAt(orders, lookups, idx[1..]);
      assert OrdersOf(e + rest) == OrdersOf(e) + OrdersOf(rest);
      assert Pick(orders, idx) == [orders[idx[0]]] + Pick(orders, idx[1..]);
      assert multiset(OrdersOf(e)) <= multiset{orders[idx[0]]};
    }
  }

  /** The paid list is a sub-multiset of the fetched orders. */
  lemma PaidListSubMultiset(orders: seq<Order>, lookups: seq<Lookup>)
    requires |lookups| == |orders|
    ensures multiset(OrdersOf(Join(orders, lookups))) <= multiset(orders)
  {
    JoinAtSubMultiset(orders, lookups, Range(0, |orders|));
    assert Pick(orders, Range(0, |orders|)) == orders;
  }

  lemma {:induction false} JoinAtIgnoresOthers(orders: seq<Order>, lookups: seq<Lookup>, idx: seq<nat>, j: nat, l: Lookup)
    requires |lookups| == |orders| && IndicesIn(idx, |orders|) && j < |orders|
    requires forall k :: 0 <= k < |idx| ==> idx[k] != j
    ensures JoinAt(orders, lookups[j := l], idx) == JoinAt(orders, lookups, idx)
  {
    if idx != [] {
      JoinAtIgnoresOthers(orders, lookups, idx[1..], j, l);
    }
  }

  lemma RangeSplit(j: nat, n: nat)
    requires j < n
    ensures Range(0, n) == Range(0, j) + [j] + Range(j + 1, n)
  {
    var l, r := Range(0, n), Range(0, j) + [j] + Range(j + 1, n);
    assert |l| == |r|;
    forall k | 0 <= k < n
      ensures l[k] == r[k]
    {
      if k < j {
        assert r[k] == Range(0, j)[k];
      } else if k > j {
        assert r[k] == Range(j + 1, n)[k - j - 1];
      }
    }
  }

  /** The in-order join split around position `j`. */
  lemma JoinAround(orders: seq<Order>, lookups: seq<Lookup>, j: nat)
    requires |lookups| == |orders| && j < |orders|
    ensures Join(orders, lookups) ==
      JoinAt(orders, lookups, Range(0, j)) + JoinAt(orders, lookups, [j]) +
      JoinAt(orders, lookups, Range(j + 1, |orders|))
  {
    var n := |orders|;
    var a, b := Range(0, j), Range(j + 1, n);
    assert IndicesIn(a, n) && IndicesIn(b, n) && IndicesIn([j], n);
    RangeSplit(j, n);
    JoinAtAppend(orders, lookups, a, [j]);
    JoinAtAppend(orders, lookups, a + [j], b);
  }

  /** Changing the lookup of an order outside a range leaves the range's
      join unchanged. */
  lemma JoinAtRangeIgnores(orders: seq<Order>, lookups: seq<Lookup>, lo: nat, hi: nat, j: nat, l: Lookup)
    requires |lookups| == |orders| && lo <= hi <= |orders| && j < |orders| && (j < lo || hi <= j)
    ensures IndicesIn(Range(lo, hi), |orders|)
    ensures JoinAt(orders, lookups[j := l], Range(lo, hi)) == JoinAt(orders, lookups, Range(lo, hi))
  {
    JoinAtIgnoresOthers(orders, lookups, Range(lo, hi), j, l);
  }

  /** The failed position contributes nothing. */
  lemma JoinAtFailed(orders: seq<Order>, lookups: seq<Lookup>, j: nat, f: Failure)
    requires |lookups| == |orders| && j < |orders|
    ensures JoinAt(orders, lookups[j := Err(f)], [j]) == []
  {
    assert PaidEntry(orders[j], lookups[j := Err(f)][j]) == None;
  }

  /** A failed lookup drops exactly its own order: the paid list is then the
      one built from every other order's lookup, unchanged. */
  lemma FailedLookupIsolated(orders: seq<Order>, lookups: seq<Lookup>, j: nat, f: Failure)
    requires |lookups| == |orders| && j < |orders|
    ensures Join(orders, lookups[j := Err(f)]) ==
      JoinAt(orders, lookups, Range(0, j)) + JoinAt(orders, lookups, Range(j + 1, |orders|))
  {
    var ls := lookups[j := Err(f)];
    JoinAround(orders, ls, j);
    JoinAtFailed(orders, lookups, j, f);
    JoinAtRangeIgnores(orders, lookups, 0, j, j, Err(f));
    JoinAtRangeIgnores(orders, lookups, j + 1, |orders|, j, Err(f));
    var left := JoinAt(orders, lookups, Range(0, j));
    var right := JoinAt(orders, lookups, Range(j + 1, |orders|));
    assert Join(orders, ls) == left + [] + right;
    assert left + [] == left;
  }

  /** State of the orders tab. */
  datatype OrdersTab = OrdersTab(orders: seq<PaidOrder>, error: string, loading: bool)

  const OrdersFailed := "Failed to load orders. Please try again."

  /** `fetchOrders`: on success the list is replaced by the paid orders in
      completion order; on failure the message is set and the old list kept.
      Loading is cleared either way. */
  function FetchOrders(tab: OrdersTab, fetched: Response<seq<Order>>, lookups: seq<Lookup>, arrival: seq<nat>): (r: OrdersTab)
    requires fetched.Ok? ==>
      |lookups| == |fetched.body| && multiset(arrival) == multiset(Range(0, |fetched.body|))
    ensures !r.loading
    ensures fetched.Err? ==> r.orders == tab.orders && r.error == OrdersFailed
    ensures fetched.Ok? ==>
      r.error == "" && multiset(r.orders) == multiset(Join(fetched.body, lookups))
  {
    match fetched
    case Err(_) => OrdersTab(tab.orders, OrdersFailed, false)
    case Ok(orders) =>
      assert IndicesIn(arrival, |orders|) by {
        forall k | 0 <= k < |arrival|
          ensures arrival[k] < |orders|
        {
          assert arrival[k] in multiset(Range(0, |orders|));
        }
      }
      JoinAtPermutation(orders, lookups, arrival, Range(0, |orders|));
      OrdersTab(JoinAt(orders, lookups, arrival), "", false)
  }

  /** The add-product form; the empty string is an unfilled field. */
  datatype ProductForm = ProductForm(name: string, description: string, price: string, categoryId: string)

  const EmptyProductForm := ProductForm("", "", "", "")
  const FillAllFields := "Please fill in all product fields."

  /** After pressing "add": whether the create request was issued, the
      error shown, the form, and the effects. */
  datatype Submitted<F> = Submitted(issued: bool, error: string, form: F, effects: seq<Effect>)

  predicate ProductFormComplete(f: ProductForm)
  {
    f.name != "" && f.description != "" && f.price != "" && f.categoryId != ""
  }

  /** `handleAddProduct`: blocked without a request when a field is empty;
      otherwise submitted, and on success the form is cleared and the
      catalogue is told to refresh. */
  function AddProduct(form: ProductForm, created: Response<()>): (r: Submitted<ProductForm>)
    ensures r.issued <==> ProductFormComplete(form)
    ensures !r.issued ==> r == Submitted(false, FillAllFields, form, [])
    ensures r.issued && created.Ok? ==>
      r.error == "" && r.form == EmptyProductForm &&
      r.effects == [Alert("Product added successfully!"), Dispatch("productsUpdated")]
    ensures r.issued && created.Err? ==>
      r.form == form && r.effects == [] &&
      r.error == "Error adding product: " +
        (if created.failure.dataText != "" then created.failure.dataText else created.failure.message)
  {
    if !ProductFormComplete(form) then Submitted(false, FillAllFields, form, [])
    else match created
      case Ok(_) =>
        Submitted(true, "", EmptyProductForm, [Alert("Product added successfully!"), Dispatch("productsUpdated")])
      case Err(f) =>
        Submitted(true, "Error adding product: " + (if f.dataText != "" then f.dataText else f.message), form, [])
  }

  /** `handleAddCategory`: blocked without a request when the name is empty;
      on success the name is cleared. */
  function AddCategory(categoryName: string, created: Response<()>): (r: Submitted<string>)
    ensures r.issued <==> categoryName != ""
    ensures !r.issued ==> r == Submitted(false, "Please enter a category name", categoryName, [])
    ensures r.issued && created.Ok? ==>
      r.error == "" && r.form == "" && r.effects == [Alert("Category added successfully!")]
    ensures r.issued && created.Err? ==>
      r.form == categoryName && r.effects == [] &&
      r.error == "Error adding category: " +
        (if created.failure.dataMessage != "" then created.failure.dataMessage else created.failure.message)
  {
    if categoryName == "" then Submitted(false, "Please enter a category name", categoryName, [])
    else match created
      case Ok(_) => Submitted(true, "", "", [Alert("Category added successfully!")])
      case Err(f) =>
        Submitted(true, "Error adding category: " + (if f.dataMessage != "" then f.dataMessage else f.message),
                  categoryName, [])
  }

  /** `handleSignIn`: `reply` is the HTTP status of a login reply the client
      accepted, or the failure of a rejected one. */
  function SignIn(authenticated: bool, reply: Response<int>): (r: (bool, string))
    ensures r.0 <==> authenticated || reply == Ok(200)
    ensures r.1 == "" <==> reply.Ok?
    ensures reply.Err? ==> r.1 == "Login failed. Please check your credentials."
  {
    match reply
    case Ok(status) => (authenticated || status == 200, "")
    case Err(_) => (authenticated, "Login failed. Please check your credentials.")
  }

  /** Pressing "add" again right after a successful submission issues
      nothing: the cleared forms fail their own checks. */
  lemma ResubmitAfterSuccessIsBlocked(form: ProductForm, name: string, first: Response<()>, second: Response<()>)
    requires first.Ok?
    ensures AddProduct(form, first).issued ==>
      AddProduct(AddProduct(form, first).form, second) == Submitted(false, FillAllFields, EmptyProductForm, [])
    ensures AddCategory(name, first).issued ==> !AddCategory(AddCategory(name, first).form, second).issued
  {
  }

  /** Sign-in never signs the admin out, and a signed-out admin becomes
      signed in only through a 200 reply. */
  lemma SignInMonotone(authenticated: bool, reply: Response<int>, status: int)
    ensures authenticated ==> SignIn(authenticated, reply).0
    ensures !SignIn(false, Ok(status)).0 <==> status != 200
  {
  }
}

=== FILE: cart_page.dfy ===
/** The selection ledger and checkout guard of the cart page
    (frontend-web/app/cart/page.jsx).

    The page keeps the loaded cart items and a list of selected cart-item ids.
    The checkboxes toggle single ids, one button toggles all, the displayed
    total and the checkout amount are both sums over the selected items, and
    checkout asks the backend for a payment session before handing its
    reference to the external payment page. Prices are integer centavos.
 */
module CartPage {
  import opened Wrappers

  datatype CartItem = CartItem(cartItemId: int, price: Option<int>)

  /** `item.price || 0`: a missing price counts as zero. */
  function PriceOf(item: CartItem): int
  {
    if item.price.Some? then item.price.value else 0
  }

  /** `cartItems.map(item => item.cartItemId)` */
  function Ids(items: seq<CartItem>): (ids: seq<int>)
    ensures |ids| == |items|
    ensures forall i :: 0 <= i < |items| ==> ids[i] == items[i].cartItemId
  {
    if items == [] then [] else [items[0].cartItemId] + Ids(items[1..])
  }

  /** `prev.filter(x => x !== id)`: every occurrence of `id` is dropped and
      every other id keeps its multiplicity. */
  function RemoveAll(sel: seq<int>, id: int): (r: seq<int>)
    ensures multiset(r) == multiset(sel)[id := 0]
    ensures |r| == |sel| - multiset(sel)[id]
  {
    if sel == [] then []
    else
      var rest := RemoveAll(sel[1..], id);
      assert sel == [sel[0]] + sel[1..];
      if sel[0] == id then rest else [sel[0]] + rest
  }

  /** `handleSelectItem`: remove every occurrence of a selected id, or append
      an unselected one at the end. */
  function Toggle(sel: seq<int>, id: int): (r: seq<int>)
    ensures id in sel ==> multiset(r) == multiset(sel)[id := 0]
    ensures id !in sel ==> r == sel + [id]
    ensures id in r <==> id !in sel
    ensures forall x :: x != id ==> (x in r <==> x in sel)
  {
    if id in sel then
      var r := RemoveAll(sel, id);
      assert forall x :: x in r <==> x in multiset(r);
      r
    else sel + [id]
  }

  /** Toggling the same id twice restores which ids are selected. */
  lemma ToggleTwiceMembership(sel: seq<int>, id: int)
    ensures forall x :: x in Toggle(Toggle(sel, id), id) <==> x in sel
  {
  }

  /** ... but not the list itself: a selected id that was not last moves to
      the end, and duplicates of it collapse to one. */
  lemma ToggleTwiceReorders()
    ensures Toggle(Toggle([1, 2], 1), 1) == [2, 1]
    ensures Toggle(Toggle([1, 1], 1), 1) == [1]
  {
    var r := Toggle([1, 2], 1);
    assert multiset(r) == multiset{2};
    assert r == [2] by {
      assert |r| == 1;
      assert r[0] in multiset(r);
    }
    var q := Toggle([1, 1], 1);
    assert multiset(q) == multiset{};
    assert q == [];
  }

  /** `handleSelectAll`: a single control that clears the selection when it
      is as long as the item list, and otherwise selects every item in cart
      order. The test compares lengths, not contents. */
  function SelectAll(sel: seq<int>, items: seq<CartItem>): (r: seq<int>)
    ensures |sel| == |items| ==> r == []
    ensures |sel| != |items| ==>
      |r| == |items| && (forall i :: 0 <= i < |items| ==> r[i] == items[i].cartItemId)
  {
    if |sel| == |items| then [] else Ids(items)
  }

  /** Select-all from a partial selection selects everything; pressing it
      again clears. */
  lemma SelectAllTwice(sel: seq<int>, items: seq<CartItem>)
    requires |sel| != |items|
    ensures forall i :: 0 <= i < |items| ==> items[i].cartItemId in SelectAll(sel, items)
    ensures SelectAll(SelectAll(sel, items), items) == []
  {
    var r := SelectAll(sel, items);
    forall i | 0 <= i < |items|
      ensures items[i].cartItemId in r
    {
      assert r[i] == items[i].cartItemId;
    }
  }

  /** A stale selection of the right length is cleared although none of the
      loaded items is selected. */
  lemma SelectAllStaleClears()
    ensures SelectAll([7], [CartItem(1, Some(100))]) == []
  {
  }

  /** The items whose id is selected, in cart order (`cartItems.filter(...)`). */
  function Selected(items: seq<CartItem>, sel: seq<int>): (r: seq<CartItem>)
    ensures |r| <= |items|
    ensures forall x :: x in r <==> x in items && x.cartItemId in sel
    ensures forall x :: multiset(r)[x] == if x.cartItemId in sel then multiset(items)[x] else 0
  {
    if items == [] then []
    else
      var rest := Selected(items[1..], sel);
      assert items == [items[0]] + items[1..];
      assert forall x :: x in items <==> x == items[0] || x in items[1..];
      if items[0].cartItemId in sel then [items[0]] + rest else rest
  }

  /** `.reduce((sum, item) => sum + (item.price || 0), 0)` */
  function SumPrices(items: seq<CartItem>): int
  {
    if items == [] then 0 else PriceOf(items[0]) + SumPrices(items[1..])
  }

  /** The displayed total: the sum over the selected items. */
  function Total(items: seq<CartItem>, sel: seq<int>): int
  {
    SumPrices(Selected(items, sel))
  }

  /** The total depends only on which ids are selected, not on their order
      or repetition. */
  lemma {:induction false} TotalDependsOnMembership(items: seq<CartItem>, s1: seq<int>, s2: seq<int>)
    requires forall x :: x in s1 <==> x in s2
    ensures Total(items, s1) == Total(items, s2)
  {
    if items != [] {
      TotalDependsOnMembership(items[1..], s1, s2);
    }
  }

  /** An empty selection totals zero. */
  lemma {:induction false} TotalEmpty(items: seq<CartItem>)
    ensures Total(items, []) == 0
  {
    if items != [] {
      TotalEmpty(items[1..]);
    }
  }

  /** Selected ids that match no loaded item contribute nothing. */
  lemma {:induction false} TotalIgnoresStale(items: seq<CartItem>, sel: seq<int>, stale: int)
    requires stale !in Ids(items)
    ensures Total(items, sel + [stale]) == Total(items, sel)
  {
    if items != [] {
      assert Ids(items) == [items[0].cartItemId] + Ids(items[1..]);
      TotalIgnoresStale(items[1..], sel, stale);
    }
  }

  /** Selecting an unselected id adds the prices of the items carrying it. */
  lemma {:induction false} TotalToggleOn(items: seq<CartItem>, sel: seq<int>, id: int)
    requires id !in sel
    ensures Total(items, Toggle(sel, id)) == Total(items, sel) + SumPrices(Selected(items, [id]))
  {
    if items != [] {
      TotalToggleOn(items[1..], sel, id);
    }
  }

  /** With every item selected the total is the whole cart. */
  lemma {:induction false} TotalAllSelected(items: seq<CartItem>, sel: seq<int>)
    requires forall i :: 0 <= i < |items| ==> items[i].cartItemId in sel
    ensures Total(items, sel) == SumPrices(items)
  {
    if items != [] {
      TotalAllSelected(items[1..], sel);
    }
  }

  /** Body of the create-intent request. */
  datatype IntentRequest = IntentRequest(userId: int, amount: int, currency: string)

  /** How one press of the checkout button ends. `clientSecret` is the
      backend's payment-session reference; the empty string stands for a
      missing body or field. */
  datatype CheckoutOutcome =
    | NothingSelected
    | IntentRejected(request: IntentRequest)
    | SessionMissing(request: IntentRequest)
    | RedirectToPayment(request: IntentRequest, sessionRef: string)

  /** `handleCheckout`: an empty selection is refused before any request;
      otherwise the amount is computed over the selected items, the intent is
      requested, and the redirect is attempted only with a non-empty session
      reference. */
  function Checkout(userId: int, items: seq<CartItem>, sel: seq<int>, reply: Response<string>): (o: CheckoutOutcome)
    ensures o.NothingSelected? <==> |sel| == 0
    ensures !o.NothingSelected? ==> o.request == IntentRequest(userId, Total(items, sel), "php")
    ensures o.IntentRejected? <==> |sel| > 0 && reply.Err?
    ensures o.RedirectToPayment? <==> |sel| > 0 && reply.Ok? && reply.body != ""
    ensures o.RedirectToPayment? ==> o.sessionRef == reply.body
  {
    if |sel| == 0 then NothingSelected
    else
      var toCheckout := Selected(items, sel);
      var request := IntentRequest(userId, SumPrices(toCheckout), "php");
      match reply
      case Err(_) => IntentRejected(request)
      case Ok(secret) =>
        if secret != "" then RedirectToPayment(request, secret) else SessionMissing(request)
  }

  /** The alert shown for each outcome; a successful redirect leaves the page. */
  function CheckoutAlert(o: CheckoutOutcome): (alert: Option<string>)
    ensures alert.None? <==> o.RedirectToPayment?
  {
    match o
    case NothingSelected => Some("Please select at least one item to checkout.")
    case IntentRejected(_) => Some("Failed to initiate payment. Please try again.")
    case SessionMissing(_) => Some("Stripe session creation failed.")
    case RedirectToPayment(_, _) => None
  }

  /** Checking out everything selected by select-all charges the whole cart. */
  lemma CheckoutAfterSelectAll(userId: int, items: seq<CartItem>, selIds: seq<int>, reply: Response<string>)
    requires |selIds| != |items| && |items| > 0
    ensures Checkout(userId, items, SelectAll(selIds, items), reply).request.amount == SumPrices(items)
  {
    SelectAllTwice(selIds, items);
    TotalAllSelected(items, SelectAll(selIds, items));
  }
}

=== FILE: cart_resolution.dfy ===
/** Add-to-cart on the products page (`handleAddToCart` in
    frontend-web/app/products/page.jsx): resolve the user's cart from three
    backend observations, then create the cart item and announce the change.

    The three observations are the by-user lookup, the list of all carts and
    the create-cart reply. They are inputs here; which of them the code
    actually requests is part of the result (`requests`), so "the scan is not
    issued" is a statement about that list.
 */
module CartResolution {
  import opened Wrappers
  import CartPage

  /** A cart as the backend returns it: `cartId` and `cart.user?.userId`. */
  datatype CartRecord = CartRecord(cartId: Option<int>, owner: Option<int>)

  /** The product being added; `price` is its current price in centavos. */
  datatype Product = Product(productId: int, price: int)

  datatype Request =
    | GetCartByUser(userId: int)
    | GetAllCarts
    | CreateCart(userId: int, totalPrice: int)
    | CreateCartItem(price: int, cartId: Option<int>, productId: int)

  /** The backend's answers, one per request the procedure may issue.
      A `null` by-user body is `Ok(None)`. */
  datatype Observations = Observations(
    direct: Response<Option<CartRecord>>,
    allCarts: Response<seq<CartRecord>>,
    created: Response<CartRecord>,
    itemCreated: Response<()>)

  /** Exactly one action or outcome of cart resolution. */
  datatype Resolution =
    | UseFound(cart: CartRecord)
    | UseScanned(cart: CartRecord)
    | UseCreated(cart: CartRecord)
    | CartAccessError
    | CartUnavailable
  {
    predicate Resolved() { UseFound? || UseScanned? || UseCreated? }
  }

  const AlreadyHasCart := "User already has a cart."
  const AccessAlert := "System error: Your cart exists but cannot be accessed. Please contact support."
  const AccessError := "Cart access error: Cart exists but can't be retrieved"
  const GenericError := "Could not create or access your cart"
  const FallbackError := "Failed to add to cart."

  /** The by-user lookup is usable when it returned a cart with a truthy id. */
  predicate DirectUsable(direct: Response<Option<CartRecord>>)
  {
    direct.Ok? && direct.body.Some? && TruthyId(direct.body.value.cartId)
  }

  /** `allCarts.find(cart => cart.user && cart.user.userId === userId)`,
      as an index into the list. */
  function FirstOwned(carts: seq<CartRecord>, userId: int): (k: Option<nat>)
    ensures k.Some? ==> k.value < |carts| && carts[k.value].owner == Some(userId)
    ensures k.Some? ==> forall j :: 0 <= j < k.value ==> carts[j].owner != Some(userId)
    ensures k.None? <==> forall j :: 0 <= j < |carts| ==> carts[j].owner != Some(userId)
  {
    FirstIndex(carts, (c: CartRecord) => c.owner == Some(userId))
  }

  /** The failure of the scan or of the create request is classified by the
      message in its response body. */
  function Classify(f: Failure): (r: Resolution)
    ensures r == CartAccessError <==> f.dataMessage == AlreadyHasCart
    ensures r == CartUnavailable <==> f.dataMessage != AlreadyHasCart
  {
    if f.dataMessage == AlreadyHasCart then CartAccessError else CartUnavailable
  }

  /** Cart resolution: the found cart, else the first owned cart of the scan,
      else a freshly created cart; a failed scan or create is classified. */
  function Resolve(userId: int, obs: Observations): (r: Resolution)
    ensures r.UseFound? <==> DirectUsable(obs.direct)
    ensures r.UseFound? ==> r.cart == obs.direct.body.value
    ensures r.UseScanned? <==>
      !DirectUsable(obs.direct) && obs.allCarts.Ok? && FirstOwned(obs.allCarts.body, userId).Some?
    ensures r.UseScanned? ==> r.cart.owner == Some(userId) && r.cart in obs.allCarts.body
    ensures r.UseScanned? ==>
      FirstOwned(obs.allCarts.body, userId).Some? &&
      r.cart == obs.allCarts.body[FirstOwned(obs.allCarts.body, userId).value]
    ensures r.UseCreated? <==>
      !DirectUsable(obs.direct) && obs.allCarts.Ok? && FirstOwned(obs.allCarts.body, userId).None? &&
      obs.created.Ok?
    ensures r.UseCreated? ==> r.cart == obs.created.body
    ensures r.CartAccessError? <==>
      !DirectUsable(obs.direct) &&
      ((obs.allCarts.Err? && obs.allCarts.failure.dataMessage == AlreadyHasCart) ||
       (obs.allCarts.Ok? && FirstOwned(obs.allCarts.body, userId).None? &&
        obs.created.Err? && obs.created.failure.dataMessage == AlreadyHasCart))
  {
    if DirectUsable(obs.direct) then UseFound(obs.direct.body.value)
    else match obs.allCarts
      case Err(f) => Classify(f)
      case Ok(carts) =>
        match FirstOwned(carts, userId)
        case Some(k) => UseScanned(carts[k])
        case None =>
          match obs.created
          case Ok(c) => UseCreated(c)
          case Err(f) => Classify(f)
  }

  /** The cart requests issued while resolving, in order. */
  function ResolutionRequests(userId: int, obs: Observations): (rs: seq<Request>)
    ensures |rs| >= 1 && rs[0] == GetCartByUser(userId)
    ensures DirectUsable(obs.direct) ==> rs == [GetCartByUser(userId)]
    ensures (exists q :: q in rs && IsCreateCart(q)) <==>
      !DirectUsable(obs.direct) && obs.allCarts.Ok? && FirstOwned(obs.allCarts.body, userId).None?
    ensures forall q :: q in rs && IsCreateCart(q) ==> q == CreateCart(userId, 0)
    ensures !DirectUsable(obs.direct) ==> |rs| >= 2 && rs[1] == GetAllCarts
    ensures forall q :: q in rs ==> !IsCreateCartItem(q)
  {
    var tail :=
      if obs.allCarts.Ok? && FirstOwned(obs.allCarts.body, userId).None? then [CreateCart(userId, 0)]
      else [];
    if DirectUsable(obs.direct) then [GetCartByUser(userId)]
    else
      var rs := [GetCartByUser(userId), GetAllCarts] + tail;
      assert tail != [] ==> IsCreateCart(rs[2]);
      rs
  }

  datatype AddResult = AddResult(requests: seq<Request>, effects: seq<Effect>)

  predicate IsCreateCart(r: Request) { r.CreateCart? }

  predicate IsCreateCartItem(r: Request) { r.CreateCartItem? }

  /** `handleAddToCart` for the signed-in user `user` (None when signed out). */
  function AddToCart(user: Option<int>, product: Product, obs: Observations): (res: AddResult)
    ensures user.None? ==> res.requests == [] && res.effects == [Navigate("/login")]
    ensures user.Some? ==> |res.requests| >= 1 && res.requests[0] == GetCartByUser(user.value)
    ensures user.Some? && DirectUsable(obs.direct) ==>
      GetAllCarts !in res.requests && forall q :: q in res.requests ==> !IsCreateCart(q)
    ensures (exists q :: q in res.requests && IsCreateCart(q)) <==>
      user.Some? && !DirectUsable(obs.direct) && obs.allCarts.Ok? &&
      FirstOwned(obs.allCarts.body, user.value).None?
    ensures forall q :: q in res.requests && IsCreateCart(q) ==> q.totalPrice == 0
    ensures user.Some? && !DirectUsable(obs.direct) ==> |res.requests| >= 2 && res.requests[1] == GetAllCarts
    ensures (exists q :: q in res.requests && IsCreateCartItem(q)) <==>
      user.Some? && Resolve(user.value, obs).Resolved()
    ensures user.Some? && Resolve(user.value, obs).Resolved() ==>
      res.requests[|res.requests| - 1] ==
        CreateCartItem(product.price, Resolve(user.value, obs).cart.cartId, product.productId)
    ensures Dispatch("cartUpdated") in res.effects <==>
      user.Some? && Resolve(user.value, obs).Resolved() && obs.itemCreated.Ok?
    ensures user.Some? && Resolve(user.value, obs).Resolved() && obs.itemCreated.Ok? ==>
      res.effects == [Dispatch("cartUpdated"), Navigate("/cart")]
    ensures user.Some? && Resolve(user.value, obs).Resolved() && obs.itemCreated.Err? ==>
      res.effects == [Alert(if obs.itemCreated.failure.message != "" then obs.itemCreated.failure.message
                            else FallbackError)]
    ensures user.Some? && Resolve(user.value, obs).CartAccessError? ==>
      res.effects == [Alert(AccessAlert), Alert(AccessError)]
    ensures user.Some? && Resolve(user.value, obs).CartUnavailable? ==>
      res.effects == [Alert(GenericError)]
  {
    match user
    case None => AddResult([], [Navigate("/login")])
    case Some(uid) =>
      var rs := ResolutionRequests(uid, obs);
      match Resolve(uid, obs)
      case CartAccessError => AddResult(rs, [Alert(AccessAlert), Alert(AccessError)])
      case CartUnavailable => AddResult(rs, [Alert(GenericError)])
      case _ =>
        var cart := Resolve(uid, obs).cart;
        var item := CreateCartItem(product.price, cart.cartId, product.productId);
        var effects :=
          match obs.itemCreated
          case Ok(_) => [Dispatch("cartUpdated"), Navigate("/cart")]
          case Err(f) => [Alert(if f.message != "" then f.message else FallbackError)];
        assert item in rs + [item] && IsCreateCartItem(item);
        AddResult(rs + [item], effects)
  }

  /** Create-cart is reached only when both lookups found nothing, and then
      the resolved cart is the created one. */
  lemma CreateOnlyWhenBothLookupsFail(userId: int, product: Product, obs: Observations)
    requires exists q :: q in AddToCart(Some(userId), product, obs).requests && IsCreateCart(q)
    ensures !DirectUsable(obs.direct)
    ensures obs.allCarts.Ok? && forall c :: c in obs.allCarts.body ==> c.owner != Some(userId)
    ensures obs.created.Ok? ==> Resolve(userId, obs) == UseCreated(obs.created.body)
  {
    var carts := obs.allCarts.body;
    forall c | c in carts
      ensures c.owner != Some(userId)
    {
      var j :| 0 <= j < |carts| && carts[j] == c;
    }
  }

  /** The price on the new cart item is the product's price at the moment of
      the call; the rest of the request does not depend on it. */
  lemma PriceSnapshot(userId: int, product: Product, obs: Observations, later: int)
    requires Resolve(userId, obs).Resolved()
    ensures var rs := AddToCart(Some(userId), product, obs).requests;
      rs[|rs| - 1].price == product.price
    ensures var rs := AddToCart(Some(userId), product, obs).requests;
      var rs' := AddToCart(Some(userId), product.(price := later), obs).requests;
      |rs| == |rs'| && rs[..|rs| - 1] == rs'[..|rs'| - 1]
  {
  }

  /** The change notification is emitted after the item request, never on a
      failed resolution or a failed item write. */
  lemma NoNotificationOnFailure(userId: int, product: Product, obs: Observations)
    requires !Resolve(userId, obs).Resolved() || obs.itemCreated.Err?
    ensures Dispatch("cartUpdated") !in AddToCart(Some(userId), product, obs).effects
    ensures Navigate("/cart") !in AddToCart(Some(userId), product, obs).effects
  {
  }

  /** A user without a cart adds a product priced 150.00: the cart is
      created, the item is created at that price, and checking out the
      selected item charges 15000 centavos. */
  lemma FirstPurchaseScenario(userId: int, productId: int, cart: CartRecord, itemId: int, secret: string)
    requires TruthyId(cart.cartId) && secret != ""
    ensures var obs := Observations(Ok(None), Ok([]), Ok(cart), Ok(()));
      var res := AddToCart(Some(userId), Product(productId, 15000), obs);
      res.requests == [GetCartByUser(userId), GetAllCarts, CreateCart(userId, 0),
                       CreateCartItem(15000, cart.cartId, productId)] &&
      res.effects == [Dispatch("cartUpdated"), Navigate("/cart")]
    ensures var items := [CartPage.CartItem(itemId, Some(15000))];
      CartPage.Checkout(userId, items, [itemId], Ok(secret)) ==
        CartPage.RedirectToPayment(CartPage.IntentRequest(userId, 15000, "php"), secret)
  {
    var items := [CartPage.CartItem(itemId, Some(15000))];
    assert CartPage.Selected(items, [itemId]) == items by {
      assert CartPage.Selected(items[1..], [itemId]) == [];
    }
    assert CartPage.SumPrices(items) == 15000 by {
      assert items[1..] == [];
    }
  }
}

=== FILE: image_urls.dfy ===
/** The `getImageUrl` normalisers of the client's pages.

    Every page turns a stored image path into something an `<img>` can load,
    but the pages disagree on three points, and each variant is kept apart:
    - the base host that a relative path is appended to;
    - whether a relative path missing its leading `/` gets one ("slash repair");
    - whether "absolute" means a strict `http://`/`https://` prefix or a loose
      `http` prefix (the orders page, which also has no placeholder case).

    An absent URL (`undefined`/`null`) is modelled as the empty string: every
    variant tests it only through JavaScript falsiness, which treats both alike.
 */
module ImageUrls {
  import opened Strings

  const Placeholder := "/placeholder.svg"

  /** Base hosts hard-coded in the pages, written scheme first. */
  const CartHost := "https://" + "swiftthrift-457311.as.r.appspot.com"
  const CatalogHost := "https://" + "swiftthrift-457008.as.r.appspot.com"
  const LocalHost := "http://" + "localhost:8080"

  /** The strict absoluteness test shared by the four `getImageUrl` helpers. */
  predicate IsAbsolute(url: string)
  {
    StartsWith(url, "http://") || StartsWith(url, "https://")
  }

  /** Shared shape of the four `getImageUrl` helpers: falsy input gives the
      placeholder, an absolute URL passes through, anything else is appended to
      `host`, after prefixing a `/` when `repair` is set and one is missing. */
  function Absolutize(host: string, repair: bool, url: string): (r: string)
    ensures url == "" ==> r == Placeholder
    ensures url != "" && IsAbsolute(url) ==> r == url
    ensures url != "" && !IsAbsolute(url) ==>
      exists path :: r == host + path && (path == url || path == "/" + url) &&
        (path == "/" + url <==> repair && !StartsWith(url, "/")) &&
        (repair ==> StartsWith(path, "/"))
  {
    if url == "" then Placeholder
    else if IsAbsolute(url) then url
    else if repair && !StartsWith(url, "/") then
      var path := "/" + url;
      assert StartsWith(path, "/");
      host + path
    else host + url
  }

  /** frontend-web/app/cart/page.jsx `getImageUrl`: no slash repair. */
  function CartImageUrl(url: string): (r: string)
    ensures url == "" ==> r == Placeholder
    ensures url != "" && IsAbsolute(url) ==> r == url
    ensures url != "" && !IsAbsolute(url) ==> r == CartHost + url
  {
    Absolutize(CartHost, false, url)
  }

  /** frontend-web/app/products/page.jsx `getImageUrl`: no slash repair,
      the catalogue deployment's host. */
  function CatalogImageUrl(url: string): (r: string)
    ensures url == "" ==> r == Placeholder
    ensures url != "" && IsAbsolute(url) ==> r == url
    ensures url != "" && !IsAbsolute(url) ==> r == CatalogHost + url
  {
    Absolutize(CatalogHost, false, url)
  }

  /** frontend-web/app/wishlist/page.jsx `getImageUrl`: slash repair. */
  function WishlistImageUrl(url: string): (r: string)
    ensures url == "" ==> r == Placeholder
    ensures url != "" && IsAbsolute(url) ==> r == url
    ensures url != "" && !IsAbsolute(url) && StartsWith(url, "/") ==> r == CartHost + url
    ensures url != "" && !IsAbsolute(url) && !StartsWith(url, "/") ==> r == CartHost + "/" + url
    ensures url != "" ==> StartsWith(r, "http")
  {
    if url == "" then Placeholder
    else
      assert StartsWith(CartHost, "http") by { assert CartHost[..4] == "http"; }
      AbsolutizeStartsWithHttp(CartHost, true, url);
      Absolutize(CartHost, true, url)
  }

  /** frontend-web/components/ProductsPage.js `getImageUrl`: slash repair,
      local development host. */
  function LocalImageUrl(url: string): (r: string)
    ensures url == "" ==> r == Placeholder
    ensures url != "" && IsAbsolute(url) ==> r == url
    ensures url != "" && !IsAbsolute(url) ==>
      exists path :: r == LocalHost + path && StartsWith(path, "/") &&
        (path == url || path == "/" + url)
    ensures url != "" && !IsAbsolute(url) && StartsWith(url, "/") ==> r == LocalHost + url
    ensures url != "" && !IsAbsolute(url) && !StartsWith(url, "/") ==> r == LocalHost + "/" + url
  {
    Absolutize(LocalHost, true, url)
  }

  /** frontend-web/app/orders/page.jsx order-item image: a loose `http`
      prefix test, no placeholder, no slash repair. */
  function OrderItemImageUrl(url: string): (r: string)
    ensures StartsWith(url, "http") ==> r == url
    ensures !StartsWith(url, "http") ==> r == CatalogHost + url
  {
    if StartsWith(url, "http") then url else CatalogHost + url
  }

  /** With a host that starts with `http`, every non-empty input normalises
      to something that starts with `http`. */
  lemma AbsolutizeStartsWithHttp(host: string, repair: bool, url: string)
    requires StartsWith(host, "http") && url != ""
    ensures StartsWith(Absolutize(host, repair, url), "http")
  {
    var r := Absolutize(host, repair, url);
    if !IsAbsolute(url) {
      StartsWithAppend(host, r[|host|..]);
      assert r == host + r[|host|..];
      StartsWithTrans(r, host, "http");
    } else if StartsWith(url, "http://") {
      StartsWithTrans(r, "http://", "http");
    } else {
      StartsWithTrans(r, "https://", "http");
    }
  }

  /** Prepending any host that is itself absolute yields an absolute URL. */
  lemma HostPrefixIsAbsolute(host: string, path: string)
    requires IsAbsolute(host)
    ensures IsAbsolute(host + path)
  {
    StartsWithAppend(host, path);
    if StartsWith(host, "http://") {
      StartsWithTrans(host + path, host, "http://");
    } else {
      StartsWithTrans(host + path, host, "https://");
    }
  }

  lemma PlaceholderIsRelative()
    ensures !IsAbsolute(Placeholder) && StartsWith(Placeholder, "/")
  {
    assert Placeholder[0] == '/';
    assert Placeholder[..1] == "/";
  }

  /** For every non-empty input, normalising twice equals normalising once,
      for every host that is itself absolute and with or without repair. */
  lemma AbsolutizeIdempotent(host: string, repair: bool, url: string)
    requires IsAbsolute(host) && url != ""
    ensures Absolutize(host, repair, Absolutize(host, repair, url)) == Absolutize(host, repair, url)
  {
    var r := Absolutize(host, repair, url);
    if !IsAbsolute(url) {
      var path := r[|host|..];
      assert r == host + path;
      HostPrefixIsAbsolute(host, path);
    }
  }

  /** components/ProductsPage.js: the normaliser is idempotent on non-empty
      input, but the placeholder it returns for empty input is not a fixed point. */
  lemma LocalImageUrlIdempotent(url: string)
    ensures url != "" ==> LocalImageUrl(LocalImageUrl(url)) == LocalImageUrl(url)
    ensures LocalImageUrl(LocalImageUrl("")) != LocalImageUrl("")
    ensures LocalImageUrl(LocalImageUrl("")) == LocalHost + Placeholder
  {
    if url != "" {
      assert IsAbsolute(LocalHost) by { assert LocalHost[..7] == "http://"; }
      AbsolutizeIdempotent(LocalHost, true, url);
    }
    PlaceholderIsRelative();
  }

  /** The wishlist variant has the same idempotence and the same non-fixed
      placeholder. */
  lemma WishlistImageUrlIdempotent(url: string)
    ensures url != "" ==> WishlistImageUrl(WishlistImageUrl(url)) == WishlistImageUrl(url)
    ensures WishlistImageUrl(WishlistImageUrl("")) == CartHost + Placeholder
  {
    if url != "" {
      assert IsAbsolute(CartHost) by { assert CartHost[..8] == "https://"; }
      AbsolutizeIdempotent(CartHost, true, url);
    }
    PlaceholderIsRelative();
  }

  /** The variants differ: without repair a bare file name is glued to the
      host, with repair it gets a separating `/`. */
  lemma RepairMatters()
    ensures CartImageUrl("a.png") == CartHost + "a.png"
    ensures WishlistImageUrl("a.png") == CartHost + "/a.png"
    ensures CartImageUrl("a.png") != WishlistImageUrl("a.png")
  {
    assert !IsAbsolute("a.png") by { assert "a.png"[..1] == "a"; }
    assert !StartsWith("a.png", "/") by { assert "a.png"[..1] == "a"; }
    assert (CartHost + "a.png")[|CartHost|] == 'a';
    assert (CartHost + "/a.png")[|CartHost|] == '/';
  }

  /** The orders page's loose test keeps `httpx...` as if it were absolute,
      where the strict test of the other pages prepends the host. */
  lemma LoosePrefixKeepsHttpx()
    ensures OrderItemImageUrl("httpx/a.png") == "httpx/a.png"
    ensures CatalogImageUrl("httpx/a.png") == CatalogHost + "httpx/a.png"
  {
    assert StartsWith("httpx/a.png", "http") by { assert "httpx/a.png"[..4] == "http"; }
    assert !StartsWith("httpx/a.png", "http://") by { assert "httpx/a.png"[4] == 'x'; }
    assert !StartsWith("httpx/a.png", "https://") by { assert "httpx/a.png"[4] == 'x'; }
  }
}

=== FILE: login_page.dfy ===
/** Sign-up and log-in on the login page (frontend-web/app/login/page.jsx).

    Both handlers use `fetch`, which resolves for every HTTP status: a reply
    is either `Replied(ok, ...)` or, when the request or the body read fails,
    `Unreachable`.
 */
module LoginPage {
  import opened Wrappers
  import opened Strings

  datatype SignupForm = SignupForm(
    email: string, fname: string, lname: string, username: string,
    password: string, confirmPassword: string, phone: string)

  const EmptySignupForm := SignupForm("", "", "", "", "", "", "")

  /** A `fetch` reply: `ok` is `response.ok`, `body` the parsed JSON of an ok
      reply and `text` the text of a failed one. */
  datatype Reply<T> = Replied(ok: bool, body: T, text: string) | Unreachable

  const Mismatch := "Passwords do not match."
  const BadPhone := "Phone number must be exactly 11 digits."
  const Generic := "An error occurred. Please try again."

  /** `/^\d{11}$/.test(phone)` */
  predicate ValidPhone(phone: string)
  {
    |phone| == 11 && AllDigits(phone)
  }

  /** What one submit of the sign-up form leaves: whether the create request
      was issued, the error and success banners, and the form. */
  datatype SignupResult = SignupResult(issued: bool, error: string, success: string, form: SignupForm)

  /** `handleSignup`: the password check comes first, then the phone check;
      either failure stops before the request. A successful sign-up empties
      every field. */
  function Signup(form: SignupForm, reply: Reply<()>): (r: SignupResult)
    ensures r.issued <==> form.password == form.confirmPassword && ValidPhone(form.phone)
    ensures form.password != form.confirmPassword ==> r == SignupResult(false, Mismatch, "", form)
    ensures form.password == form.confirmPassword && !ValidPhone(form.phone) ==>
      r == SignupResult(false, BadPhone, "", form)
    ensures r.form == EmptySignupForm <==> (r.issued && reply.Replied? && reply.ok) || form == EmptySignupForm
    ensures r.issued && reply.Replied? && !reply.ok ==> r.error == reply.text && r.success == ""
    ensures r.issued && reply.Unreachable? ==> r.error == Generic
    ensures r.success != "" <==> r.issued && reply.Replied? && reply.ok
    ensures r.issued && reply.Replied? && reply.ok ==>
      r.error == "" && r.success == "Signup successful! You can now log in."
  {
    if form.password != form.confirmPassword then SignupResult(false, Mismatch, "", form)
    else if !ValidPhone(form.phone) then SignupResult(false, BadPhone, "", form)
    else match reply
      case Unreachable => SignupResult(true, Generic, "", form)
      case Replied(ok, _, text) =>
        if ok then SignupResult(true, "", "Signup successful! You can now log in.", EmptySignupForm)
        else SignupResult(true, text, "", form)
  }

  /** The mismatch is reported even when the phone number is also invalid. */
  lemma MismatchReportedFirst(form: SignupForm, reply: Reply<()>)
    requires form.password != form.confirmPassword && !ValidPhone(form.phone)
    ensures Signup(form, reply).error == Mismatch
  {
  }

  /** Submitting again right after a successful sign-up creates nothing: the
      emptied form has matching passwords but no phone number. */
  lemma ResubmitAfterSuccessIsRejected(form: SignupForm, first: Reply<()>, second: Reply<()>)
    requires first.Replied? && first.ok
    requires Signup(form, first).issued
    ensures var again := Signup(Signup(form, first).form, second);
      !again.issued && again.error == BadPhone && again.form == EmptySignupForm
  {
  }

  /** Exactly eleven characters, all ASCII digits: nothing shorter, longer,
      or with any other character passes. */
  lemma PhoneExamples()
    ensures ValidPhone("09171234567")
    ensures !ValidPhone("0917123456")
    ensures !ValidPhone("0917-123456")
  {
    assert |"0917-123456"| == 11 && "0917-123456"[4] == '-';
  }

  /** The session a successful log-in stores. */
  datatype Session = Session(token: string, user: string)

  /** What one log-in attempt leaves: the stored session, where the page
      goes, and the banners. */
  datatype LoginResult = LoginResult(stored: Option<Session>, navigate: Option<string>, error: string, success: string)

  /** `handleLogin`: an ok reply stores token and user and goes to the
      products page; otherwise the error banner shows the reply text, or a
      generic message when no reply arrived. */
  function Login(reply: Reply<Session>): (r: LoginResult)
    ensures r.stored.Some? <==> reply.Replied? && reply.ok
    ensures r.stored.Some? ==> r.stored.value == reply.body && r.navigate == Some("/products") && r.error == ""
    ensures r.navigate.Some? <==> r.stored.Some?
    ensures reply.Replied? && !reply.ok ==> r.error == reply.text
    ensures reply.Unreachable? ==> r.error == Generic
    ensures r.success == (if reply.Replied? && reply.ok then "Login successful!" else "")
  {
    match reply
    case Unreachable => LoginResult(None, None, Generic, "")
    case Replied(ok, session, text) =>
      if ok then LoginResult(Some(session), Some("/products"), "", "Login successful!")
      else LoginResult(None, None, text, "")
  }
}

=== FILE: orders_page.dfy ===
/** The customer's order history (frontend-web/app/orders/page.jsx): the
    mount effect that reads the payment banner from the URL and gates on the
    stored token, the orders fetch, and the per-order display rules.

    The mount effect is given the `session_id` query parameter (None when
    absent or when there are no search params), the stored token ("" when
    absent) and the stored user record.
 */
module OrdersPage {
  import opened Wrappers
  import opened Strings
  import ImageUrls

  /** The `user` entry of local storage: absent, a parsable record, or text
      that `JSON.parse` rejects. */
  datatype StoredUser = NoUser | User(userId: int) | Corrupt

  /** An order as the page uses it; `status` is "" when missing. */
  datatype Order = Order(orderId: int, status: string)

  datatype Page = Page(
    loading: bool, error: string, paymentSuccess: bool,
    sessionId: Option<string>, orders: seq<Order>)

  const Initial := Page(true, "", false, None, [])

  const UserDataFailed := "Failed to load user data. Please try logging in again."
  const OrdersFailed := "Failed to load orders. Please try again later."

  /** What mounting leaves: the page, the navigation effects, and the user
      whose orders are then fetched (None when no fetch starts). */
  datatype Mounted = Mounted(page: Page, effects: seq<Effect>, fetchFor: Option<int>)

  /** The error banner is rendered only once loading has finished. */
  predicate ErrorVisible(p: Page)
  {
    !p.loading && p.error != ""
  }

  /** Reading the payment banner from the URL happens before, and
      independently of, the token gate. */
  function Banner(page: Page, sessionParam: Option<string>): (p: Page)
    ensures p.paymentSuccess <==> page.paymentSuccess || (sessionParam.Some? && sessionParam.value != "")
    ensures sessionParam.Some? && sessionParam.value != "" ==> p.sessionId == sessionParam
    ensures !(sessionParam.Some? && sessionParam.value != "") ==> p == page
    ensures p.loading == page.loading && p.error == page.error && p.orders == page.orders
  {
    if sessionParam.Some? && sessionParam.value != "" then
      page.(sessionId := sessionParam, paymentSuccess := true)
    else page
  }

  /** The mount effect exactly as the page runs it: a corrupt user record
      sets an error but leaves `loading` set. */
  function MountAsWritten(page: Page, sessionParam: Option<string>, token: string, user: StoredUser): (r: Mounted)
    ensures r.page.paymentSuccess == Banner(page, sessionParam).paymentSuccess
    ensures r.page.sessionId == Banner(page, sessionParam).sessionId
    ensures r.page.loading == page.loading
    ensures token == "" ==> r.effects == [Navigate("/login")] && r.fetchFor.None? && r.page.error == page.error
    ensures token != "" ==> r.effects == []
    ensures r.fetchFor.Some? <==> token != "" && user.User?
    ensures r.fetchFor.Some? ==> r.fetchFor.value == user.userId
    ensures token != "" && user.Corrupt? ==> r.page.error == UserDataFailed
    ensures !(token != "" && user.Corrupt?) ==> r.page == Banner(page, sessionParam)
    ensures token != "" && user.Corrupt? ==> r.page == Banner(page, sessionParam).(error := UserDataFailed)
  {
    var p := Banner(page, sessionParam);
    if token == "" then Mounted(p, [Navigate("/login")], None)
    else match user
      case NoUser => Mounted(p, [], None)
      case User(uid) => Mounted(p, [], Some(uid))
      case Corrupt => Mounted(p.(error := UserDataFailed), [], None)
  }

  /** The corrected mount effect: the corrupt-record path also ends loading,
      so its error message is rendered. Every other path is unchanged. */
  function Mount(page: Page, sessionParam: Option<string>, token: string, user: StoredUser): (r: Mounted)
    ensures r.page.paymentSuccess == Banner(page, sessionParam).paymentSuccess
    ensures r.page.sessionId == Banner(page, sessionParam).sessionId
    ensures token == "" ==> r.effects == [Navigate("/login")] && r.fetchFor.None? && r.page.error == page.error
    ensures token != "" ==> r.effects == []
    ensures r.fetchFor.Some? <==> token != "" && user.User?
    ensures r.fetchFor.Some? ==> r.fetchFor.value == user.userId
    ensures token != "" && user.Corrupt? ==> r.page.error == UserDataFailed && !r.page.loading
    ensures !(token != "" && user.Corrupt?) ==> r == MountAsWritten(page, sessionParam, token, user)
  {
    var w := MountAsWritten(page, sessionParam, token, user);
    if token != "" && user.Corrupt? then w.(page := w.page.(loading := false)) else w
  }

  /** As written, a corrupt user record on first mount starts no fetch and
      leaves the page loading, so the error it sets is never on screen. */
  lemma CorruptUserErrorHidden(sessionParam: Option<string>, token: string)
    requires token != ""
    ensures var m := MountAsWritten(Initial, sessionParam, token, Corrupt);
      m.page.error == UserDataFailed && m.fetchFor.None? && !ErrorVisible(m.page)
  {
  }

  /** A token without any stored user record also starts no fetch, so the
      page stays on its spinner with no message at all. */
  lemma NoUserKeepsSpinner(sessionParam: Option<string>, token: string)
    requires token != ""
    ensures var m := MountAsWritten(Initial, sessionParam, token, NoUser);
      m.page.loading && m.fetchFor.None? && m.effects == [] && !ErrorVisible(m.page)
  {
  }

  /** With the correction the same mount shows the error. */
  lemma CorruptUserErrorShown(sessionParam: Option<string>, token: string)
    requires token != ""
    ensures ErrorVisible(Mount(Initial, sessionParam, token, Corrupt).page)
  {
    assert UserDataFailed != "";
  }

  /** `fetchOrders`: a `null` body becomes the empty list and clears the
      error; a failed request keeps the previous orders. Loading always ends. */
  function FetchOrders(page: Page, res: Response<Option<seq<Order>>>): (p: Page)
    ensures !p.loading
    ensures res.Ok? ==> p.error == "" && p.orders == (if res.body.Some? then res.body.value else [])
    ensures res.Err? ==> p.error == OrdersFailed && p.orders == page.orders
    ensures p.paymentSuccess == page.paymentSuccess && p.sessionId == page.sessionId
  {
    match res
    case Ok(body) => page.(loading := false, error := "", orders := if body.Some? then body.value else [])
    case Err(_) => page.(loading := false, error := OrdersFailed)
  }

  /** Whatever the reply, after the fetch triggered by a signed-in mount the
      banner is still the one the URL asked for, and any error is visible. */
  lemma MountThenFetch(sessionParam: Option<string>, token: string, userId: int, res: Response<Option<seq<Order>>>)
    requires token != ""
    ensures var m := Mount(Initial, sessionParam, token, User(userId));
      var p := FetchOrders(m.page, res);
      m.fetchFor == Some(userId) &&
      (p.paymentSuccess <==> sessionParam.Some? && sessionParam.value != "") &&
      (res.Err? <==> ErrorVisible(p))
  {
    assert OrdersFailed != "";
  }

  /** `order.status || "Processing"` */
  function StatusLabel(status: string): (r: string)
    ensures r != ""
    ensures status != "" ==> r == status
    ensures status == "" ==> r == "Processing"
  {
    if status != "" then status else "Processing"
  }

  /** A missing status and the literal "Processing" display alike; every
      other status displays as itself, so the label is idempotent. */
  lemma StatusLabelCollapses(status: string)
    ensures StatusLabel(StatusLabel(status)) == StatusLabel(status)
    ensures StatusLabel("") == StatusLabel("Processing")
    ensures StatusLabel(status) == StatusLabel("Processing") <==> status == "" || status == "Processing"
  {
  }

  /** The image of an order item: none without image URLs, else the first
      URL through the orders page's loose `http` test. */
  function ItemImage(imageUrls: seq<string>): (r: Option<string>)
    ensures r.None? <==> imageUrls == []
    ensures r.Some? && StartsWith(imageUrls[0], "http") ==> r.value == imageUrls[0]
    ensures r.Some? && !StartsWith(imageUrls[0], "http") ==> r.value == ImageUrls.CatalogHost + imageUrls[0]
  {
    if imageUrls == [] then None else Some(ImageUrls.OrderItemImageUrl(imageUrls[0]))
  }

  /** Every displayed item image starts with `http`, and only the first URL
      matters. */
  lemma ItemImageIsHttp(imageUrls: seq<string>, rest: seq<string>)
    requires imageUrls != []
    ensures StartsWith(ItemImage(imageUrls).value, "http")
    ensures ItemImage(imageUrls[..1] + rest) == ItemImage(imageUrls)
  {
    var u := imageUrls[0];
    if !StartsWith(u, "http") {
      assert ImageUrls.CatalogHost[..4] == "http";
      StartsWithAppend(ImageUrls.CatalogHost, u);
      StartsWithTrans(ImageUrls.CatalogHost + u, ImageUrls.CatalogHost, "http");
    }
  }
}

=== FILE: payment_redirect.dfy ===
/** The payment-success landing page (frontend-web/app/payment-success/page.jsx)
    forwards the checkout session id to the orders page, which reads it back
    with `searchParams.get('session_id')`.

    The query string is what lies between the first `?` and the `#` that
    starts the fragment (none when a `#` comes first), split on `&`, each
    pair split at its first `=`; the first matching key wins. Percent and `+` decoding are not modelled, so
    the round trip is stated for ids made of unreserved characters.
 */
module PaymentRedirect {
  import opened Wrappers
  import opened Strings
  import OrdersPage

  const OrdersPath := "/orders"
  const SessionKey := "session_id"

  /** The page the landing page navigates to. The id is interpolated into
      the URL without encoding. */
  function RedirectTarget(sessionId: Option<string>): (r: string)
    ensures StartsWith(r, OrdersPath)
    ensures sessionId.Some? && sessionId.value != "" ==> r == OrdersPath + "?" + SessionKey + "=" + sessionId.value
    ensures !(sessionId.Some? && sessionId.value != "") ==> r == OrdersPath
  {
    var r := if sessionId.Some? && sessionId.value != "" then OrdersPath + ("?" + SessionKey + "=" + sessionId.value) else OrdersPath;
    StartsWithAppend(OrdersPath, r[|OrdersPath|..]);
    assert r == OrdersPath + r[|OrdersPath|..];
    r
  }

  /** The landing page's only effect. */
  function Land(sessionId: Option<string>): (effects: seq<Effect>)
    ensures |effects| == 1 && effects[0].Navigate?
    ensures StartsWith(effects[0].path, OrdersPath)
    ensures effects == [Navigate(RedirectTarget(sessionId))]
  {
    [Navigate(RedirectTarget(sessionId))]
  }

  /** First index of `c` in `s`. */
  function IndexOf(s: string, c: char): (k: Option<nat>)
    ensures k.None? <==> c !in s
    ensures k.Some? ==> k.value < |s| && s[k.value] == c
    ensures k.Some? ==> forall j :: 0 <= j < k.value ==> s[j] != c
  {
    FirstIndex(s, (x: char) => x == c)
  }

  /** `parts.join(c)`: the inverse of `Split`. */
  function Join(parts: seq<string>, c: char): string
    requires |parts| >= 1
  {
    if |parts| == 1 then parts[0] else parts[0] + [c] + Join(parts[1..], c)
  }

  /** `s.split(c)`: the pieces between the occurrences of `c`, none of which
      holds `c`, and which join back into `s`. */
  function Split(s: string, c: char): (parts: seq<string>)
    ensures |parts| >= 1
    ensures c !in s ==> parts == [s]
    ensures forall i :: 0 <= i < |parts| ==> c !in parts[i]
    ensures Join(parts, c) == s
  {
    if s == [] then [""]
    else
      var rest := Split(s[1..], c);
      assert s == [s[0]] + s[1..];
      if s[0] == c then
        var parts := [""] + rest;
        assert parts[1..] == rest;
        parts
      else
        var parts := [[s[0]] + rest[0]] + rest[1..];
        assert parts[1..] == rest[1..];
        assert Join(parts, c) == [s[0]] + Join(rest, c);
        parts
  }

  /** The part of a pair before its first `=`, or all of it. */
  function KeyOf(pair: string): (key: string)
    ensures '=' !in key
    ensures '=' !in pair ==> key == pair
    ensures '=' in pair ==> |key| < |pair| && pair[|key|] == '=' && key == pair[..|key|]
  {
    match IndexOf(pair, '=')
    case None => pair
    case Some(k) => pair[..k]
  }

  /** The part of a pair after its first `=`, or "" when it has none. */
  function ValueOf(pair: string): (v: string)
    ensures '=' !in pair ==> v == ""
    ensures '=' in pair ==> pair == KeyOf(pair) + "=" + v
  {
    match IndexOf(pair, '=')
    case None => ""
    case Some(k) =>
      assert pair == pair[..k] + "=" + pair[k + 1..];
      pair[k + 1..]
  }

  /** `v` is what a lookup of `key` in `pairs` should give: the value of the
      first pair with that key, or nothing when no pair has it. */
  predicate FirstValue(pairs: seq<string>, key: string, v: Option<string>)
  {
    (v.None? <==> forall i :: 0 <= i < |pairs| ==> KeyOf(pairs[i]) != key) &&
    (v.Some? ==>
      exists i :: 0 <= i < |pairs| && KeyOf(pairs[i]) == key && v.value == ValueOf(pairs[i]) &&
        forall j :: 0 <= j < i ==> KeyOf(pairs[j]) != key)
  }

  /** The value of the first pair whose key is `key`. */
  function Find(pairs: seq<string>, key: string): (v: Option<string>)
    ensures FirstValue(pairs, key, v)
  {
    match FirstIndex(pairs, (p: string) => KeyOf(p) == key)
    case None => None
    case Some(i) => Some(ValueOf(pairs[i]))
  }

  /** The query string of `url`: the run after the first `?`, up to the
      `#` that starts the fragment. A `?` inside the fragment starts no query. */
  function Query(url: string): (q: Option<string>)
    ensures '?' !in url ==> q.None?
    ensures '?' in url ==> (q.None? <==> '#' in url[..IndexOf(url, '?').value])
    ensures q.Some? ==> '#' !in q.value
    ensures q.Some? ==>
      var e := IndexOf(url, '?').value + 1 + |q.value|;
      e <= |url| && url[IndexOf(url, '?').value + 1 .. e] == q.value && (e == |url| || url[e] == '#')
  {
    match IndexOf(url, '?')
    case None => None
    case Some(i) =>
      if '#' in url[..i] then None
      else
        var rest := url[i + 1..];
        match IndexOf(rest, '#')
        case None => Some(rest)
        case Some(j) => Some(rest[..j])
  }

  /** `new URL(url).searchParams.get(key)`, without decoding: the value of
      the first `&`-separated pair of the query whose key is `key`. */
  function GetParam(url: string, key: string): (v: Option<string>)
    ensures Query(url).None? ==> v.None?
    ensures '?' !in url ==> v.None?
    ensures '?' in url && '#' in url[..IndexOf(url, '?').value] ==> v.None?
    ensures Query(url).Some? ==> FirstValue(Split(Query(url).value, '&'), key, v)
  {
    match Query(url)
    case None => None
    case Some(q) => Find(Split(q, '&'), key)
  }

  /** Letters, digits and `-._~`: the characters a query value keeps as is. */
  predicate Unreserved(s: string)
  {
    forall i :: 0 <= i < |s| ==>
      ('a' <= s[i] <= 'z') || ('A' <= s[i] <= 'Z') || IsDigit(s[i]) ||
      s[i] == '-' || s[i] == '.' || s[i] == '_' || s[i] == '~'
  }

  /** Searching a concatenation whose first part lacks `c` lands in the
      second part. */
  lemma {:induction false} IndexOfAppend(a: string, b: string, c: char)
    requires c !in a
    ensures IndexOf(a + b, c) == (if c in b then Some(|a| + IndexOf(b, c).value) else None)
    decreases |a|
  {
    if a == [] {
      assert a + b == b;
    } else {
      assert (a + b)[0] == a[0];
      assert (a + b)[1..] == a[1..] + b;
      IndexOfAppend(a[1..], b, c);
    }
  }

  /** The query of a path without `?` followed by `?q`, when `q` has no `#`, is `q`. */
  lemma QueryAfterPath(path: string, q: string)
    requires '?' !in path && '#' !in path && '#' !in q
    ensures Query(path + ("?" + q)) == Some(q)
  {
    IndexOfAppend(path, "?" + q, '?');
    assert IndexOf("?" + q, '?') == Some(0);
    assert (path + ("?" + q))[..|path|] == path;
    assert (path + ("?" + q))[|path| + 1..] == q;
  }

  /** A pair whose key has no `=` splits back into that key and value. */
  lemma PairParts(key: string, v: string)
    requires '=' !in key
    ensures KeyOf(key + ("=" + v)) == key && ValueOf(key + ("=" + v)) == v
  {
    IndexOfAppend(key, "=" + v, '=');
    assert IndexOf("=" + v, '=') == Some(0);
    assert (key + ("=" + v))[..|key|] == key;
    assert (key + ("=" + v))[|key| + 1..] == v;
  }

  /** Splitting at a separator that the first part lacks yields that part first. */
  lemma {:induction false} SplitHead(a: string, b: string, c: char)
    requires c !in a
    ensures Split(a + ([c] + b), c)[0] == a
  {
    var s := a + ([c] + b);
    if a != [] {
      assert s[0] == a[0] && s[1..] == a[1..] + ([c] + b);
      SplitHead(a[1..], b, c);
      assert a == [a[0]] + a[1..];
    }
  }

  lemma KeyFacts()
    ensures '?' !in OrdersPath && '#' !in OrdersPath && '=' !in SessionKey && '#' !in SessionKey && '&' !in SessionKey
  {
    assert OrdersPath == ['/', 'o', 'r', 'd', 'e', 'r', 's'];
    assert SessionKey == ['s', 'e', 's', 's', 'i', 'o', 'n', '_', 'i', 'd'];
  }

  /** The orders page reads back exactly the id the landing page was given,
      for every non-empty id of unreserved characters. */
  lemma SessionIdRoundTrip(s: string)
    requires s != "" && Unreserved(s)
    ensures GetParam(RedirectTarget(Some(s)), SessionKey) == Some(s)
  {
    KeyFacts();
    assert '#' !in s && '&' !in s by {
      forall i | 0 <= i < |s| ensures s[i] != '#' && s[i] != '&' { }
    }
    var pair := SessionKey + ("=" + s);
    assert '#' !in pair && '&' !in pair;
    assert RedirectTarget(Some(s)) == OrdersPath + ("?" + pair);
    QueryAfterPath(OrdersPath, pair);
    assert Split(pair, '&') == [pair];
    PairParts(SessionKey, s);
  }

  /** Without an id the orders URL carries no query at all. */
  lemma NoSessionNoParam(sessionId: Option<string>)
    requires !(sessionId.Some? && sessionId.value != "")
    ensures GetParam(RedirectTarget(sessionId), SessionKey).None?
  {
    assert '?' !in OrdersPath;
  }

  /** Landing with an id, then mounting the orders page on the target:
      the success banner shows that id. Landing without one shows none. */
  lemma BannerAfterPayment(s: string, token: string, user: OrdersPage.StoredUser)
    requires Unreserved(s)
    ensures var m := OrdersPage.Mount(OrdersPage.Initial, GetParam(RedirectTarget(Some(s)), SessionKey), token, user);
      (m.page.paymentSuccess <==> s != "") && (s != "" ==> m.page.sessionId == Some(s))
  {
    if s != "" {
      SessionIdRoundTrip(s);
    } else {
      NoSessionNoParam(Some(s));
    }
  }

  /** A repeated key is answered from its first pair, as `get` does. */
  lemma FirstPairWins()
    ensures Find([SessionKey + ("=" + "a"), SessionKey + ("=" + "b")], SessionKey) == Some("a")
  {
    KeyFacts();
    PairParts(SessionKey, "a");
    PairParts(SessionKey, "b");
  }

  /** A `?` that follows a `#` belongs to the fragment: no parameter is read. */
  lemma FragmentQueryIgnored()
    ensures GetParam(OrdersPath + "#x?" + SessionKey + "=y", SessionKey).None?
  {
    var url := OrdersPath + "#x?" + SessionKey + "=y";
    assert url[7] == '#' && url[9] == '?';
    assert '?' !in url[..9] by { assert url[..9] == "/orders#x"; }
    assert IndexOf(url, '?') == Some(9);
    assert '#' in url[..9];
  }

  /** The id is not encoded: an id holding `&` reaches the orders page cut
      short at that character. */
  lemma UnencodedIdIsCut()
    ensures GetParam(RedirectTarget(Some("a&b")), SessionKey) == Some("a")
  {
    KeyFacts();
    var first := SessionKey + ("=" + "a");
    var q := first + (['&'] + "b");
    assert '#' !in q && '&' !in first;
    assert RedirectTarget(Some("a&b")) == OrdersPath + ("?" + q);
    QueryAfterPath(OrdersPath, q);
    SplitHead(first, "b", '&');
    PairParts(SessionKey, "a");
  }
}

=== FILE: products_catalog.dfy ===
/** Normalisation of the product-list response (`fetchProducts` in
    frontend-web/app/products/page.jsx): whatever the backend sends, the page
    ends up with a list of products.

    A JSON body is modelled as a `Json` value; an object keeps its properties
    in the order `Object.keys` enumerates them.
 */
module ProductsCatalog {
  import opened Wrappers
  import opened Strings

  datatype Json =
    | JNull
    | JBool(b: bool)
    | JNumber(n: int)
    | JString(s: string)
    | JArray(items: seq<Json>)
    | JObject(entries: seq<(string, Json)>)

  /** The characters `parseInt` skips before the number: the JavaScript
      `WhiteSpace` and `LineTerminator` productions, written out. */
  predicate IsJsSpace(c: char)
  {
    var n := c as int;
    (0x09 <= n <= 0x0D) || n == 0x20 || n == 0xA0 || n == 0x1680 ||
    (0x2000 <= n <= 0x200A) || n == 0x2028 || n == 0x2029 || n == 0x202F ||
    n == 0x205F || n == 0x3000 || n == 0xFEFF
  }

  function TrimStart(s: string): (t: string)
    ensures |t| <= |s| && t == s[|s| - |t|..]
    ensures t == [] || !IsJsSpace(t[0])
    ensures forall i :: 0 <= i < |s| - |t| ==> IsJsSpace(s[i])
  {
    if s != [] && IsJsSpace(s[0]) then TrimStart(s[1..]) else s
  }

  predicate IsHexDigit(c: char)
  {
    IsDigit(c) || 'a' <= c <= 'f' || 'A' <= c <= 'F'
  }

  /** `!isNaN(parseInt(key))`: after leading white space and an optional
      sign, either `0x`/`0X` followed by a hexadecimal digit, or a decimal
      digit. */
  predicate NumericKey(key: string)
  {
    var t := TrimStart(key);
    var u := if t != [] && (t[0] == '+' || t[0] == '-') then t[1..] else t;
    if StartsWith(u, "0x") || StartsWith(u, "0X") then |u| > 2 && IsHexDigit(u[2])
    else |u| > 0 && IsDigit(u[0])
  }

  predicate HasNumericKey(entries: seq<(string, Json)>)
  {
    exists i :: 0 <= i < |entries| && NumericKey(entries[i].0)
  }

  /** `Object.values(...)` */
  function Values(entries: seq<(string, Json)>): (vs: seq<Json>)
    ensures |vs| == |entries|
    ensures forall i :: 0 <= i < |entries| ==> vs[i] == entries[i].1
  {
    seq(|entries|, i requires 0 <= i < |entries| => entries[i].1)
  }

  /** The product list the page keeps, and the error message it sets
      (`None` leaves the previous message in place). */
  datatype Loaded = Loaded(products: seq<Json>, error: Option<string>)

  const InvalidFormat := "Received invalid data format from server."
  const LoadFailed := "Failed to load products. Please try again later."

  function NormalizeProducts(response: Response<Json>): (r: Loaded)
    ensures response.Ok? && response.body.JArray? ==> r == Loaded(response.body.items, None)
    ensures response.Ok? && response.body.JObject? && HasNumericKey(response.body.entries) ==>
      r.error.None? && |r.products| == |response.body.entries| &&
      (forall i :: 0 <= i < |r.products| ==> r.products[i] == response.body.entries[i].1)
    ensures response.Ok? && response.body.JObject? && !HasNumericKey(response.body.entries) ==>
      r == Loaded([response.body], None)
    ensures r.error.Some? <==> response.Err? || !(response.body.JArray? || response.body.JObject?)
    ensures r.error.Some? ==> r.products == []
    ensures response.Ok? && !(response.body.JArray? || response.body.JObject?) ==>
      r.error == Some(InvalidFormat)
    ensures response.Err? ==> r.error == Some(LoadFailed)
  {
    match response
    case Err(_) => Loaded([], Some(LoadFailed))
    case Ok(JArray(items)) => Loaded(items, None)
    case Ok(JObject(entries)) =>
      if HasNumericKey(entries) then Loaded(Values(entries), None)
      else Loaded([JObject(entries)], None)
    case Ok(_) => Loaded([], Some(InvalidFormat))
  }

  /** Decimal rendering of a natural number. */
  function DecimalString(n: nat): (s: string)
    ensures |s| > 0 && IsDigit(s[0])
    decreases n
  {
    var d := [('0' as int + n % 10) as char];
    if n < 10 then d else DecimalString(n / 10) + d
  }

  /** The array-like object a backend produces when it serialises a list by
      index: `{"0": xs[0], "1": xs[1], ...}`. */
  function Indexed(xs: seq<Json>): (o: Json)
    ensures o.JObject? && |o.entries| == |xs|
  {
    JObject(seq(|xs|, i requires 0 <= i < |xs| => (DecimalString(i), xs[i])))
  }

  /** The numeric-key branch undoes index serialisation: a non-empty list
      sent as an index-keyed object comes back as the same list. */
  lemma IndexedRoundTrip(xs: seq<Json>)
    requires |xs| > 0
    ensures NormalizeProducts(Ok(Indexed(xs))) == Loaded(xs, None)
  {
    var o := Indexed(xs);
    var k := o.entries[0].0;
    assert !StartsWith(k, "0x") && !StartsWith(k, "0X") by {
      assert k == DecimalString(0) == "0";
    }
    assert TrimStart(k) == k;
    assert NumericKey(k);
    assert HasNumericKey(o.entries);
    assert NormalizeProducts(Ok(o)).products == xs;
  }

  /** `parseInt` accepts leading white space and trailing junk... */
  lemma NumericKeyAccepts()
    ensures NumericKey(" 12")
    ensures NumericKey("1abc")
  {
    assert TrimStart("12") == "12";
    assert TrimStart(" 12") == "12";
    assert "12"[..2] == "12";
    assert TrimStart("1abc") == "1abc";
    assert "1abc"[..2] == "1a";
  }

  /** ... and a sign ... */
  lemma NumericKeySigned()
    ensures NumericKey("-3")
  {
    assert TrimStart("-3") == "-3";
    assert "-3"[1..] == "3";
  }

  /** ... but not a bare hexadecimal prefix ... */
  lemma NumericKeyRejectsHexPrefix()
    ensures !NumericKey("0x")
  {
    assert !IsJsSpace('0');
    assert TrimStart("0x") == "0x";
    assert "0x"[..2] == "0x";
  }

  /** ... nor a name. */
  lemma NumericKeyRejectsName()
    ensures !NumericKey("name")
  {
    assert !IsJsSpace('n');
    assert TrimStart("name") == "name";
    assert "name"[0] == 'n';
  }

  /** An object whose only key is a bare `0x` is kept as a single product,
      although the key starts with a digit. */
  lemma HexPrefixKeyIsSingleton(v: Json)
    ensures NormalizeProducts(Ok(JObject([("0x", v)]))) == Loaded([JObject([("0x", v)])], None)
  {
    NumericKeyRejectsHexPrefix();
    assert !HasNumericKey([("0x", v)]);
  }
}

=== FILE: strings.dfy ===
/** String predicates the page code uses through `String.prototype` methods. */
module Strings {

  /** `s.startsWith(p)` */
  predicate StartsWith(s: string, p: string)
  {
    |p| <= |s| && s[..|p|] == p
  }

  /** The ASCII digit class `\d` of a non-Unicode JavaScript regular expression. */
  predicate IsDigit(c: char)
  {
    '0' <= c <= '9'
  }

  predicate AllDigits(s: string)
  {
    forall i :: 0 <= i < |s| ==> IsDigit(s[i])
  }

  lemma StartsWithAppend(p: string, s: string)
    ensures StartsWith(p + s, p)
  {
    assert (p + s)[..|p|] == p;
  }

  /** A prefix of a prefix is a prefix. */
  lemma StartsWithTrans(s: string, p: string, q: string)
    requires StartsWith(s, p) && StartsWith(p, q)
    ensures StartsWith(s, q)
  {
    assert s[..|q|] == p[..|q|];
  }
}

=== FILE: wishlist.dfy ===
/** Wishlist handling: the heart toggle of the products page
    (frontend-web/app/products/page.jsx) and the wishlist page's load and
    remove (frontend-web/app/wishlist/page.jsx).

    The backend's item list of one wishlist is modelled as a sequence of
    items; adding appends, deleting removes the addressed item. The page's
    local membership is a list of product ids that a full refetch replaces.
 */
module Wishlist {
  import opened Wrappers

  /** A wishlist as listed by `/wishlist/byUser`: it carries its id under
      `id`, `wishlistId`, or both. */
  datatype WishlistRecord = WishlistRecord(id: Option<int>, wishlistId: Option<int>)

  /** A wishlist item: `key` is the id its delete request addresses, and
      `productId` is `item.product.productId`. */
  datatype WishlistItem = WishlistItem(key: int, productId: int)

  /** JavaScript `a || b` on optional ids. */
  function Or(a: Option<int>, b: Option<int>): (r: Option<int>)
    ensures TruthyId(a) ==> r == a
    ensures !TruthyId(a) ==> r == b
  {
    if TruthyId(a) then a else b
  }

  /** The wishlist page prefers `wishlistId`. */
  function WishlistPageId(w: WishlistRecord): Option<int>
  {
    Or(w.wishlistId, w.id)
  }

  /** The products page prefers `id`. */
  function ProductsPageId(w: WishlistRecord): Option<int>
  {
    Or(w.id, w.wishlistId)
  }

  /** The two pages pick different ids exactly when a record carries two
      different truthy ids; with one truthy id both pick it. */
  lemma IdPreference(w: WishlistRecord)
    ensures TruthyId(w.id) && TruthyId(w.wishlistId) ==>
      (WishlistPageId(w) != ProductsPageId(w) <==> w.id != w.wishlistId)
    ensures TruthyId(w.id) && !TruthyId(w.wishlistId) ==> WishlistPageId(w) == ProductsPageId(w) == w.id
    ensures !TruthyId(w.id) && TruthyId(w.wishlistId) ==>
      WishlistPageId(w) == ProductsPageId(w) == w.wishlistId
    ensures TruthyId(WishlistPageId(w)) <==> TruthyId(ProductsPageId(w))
  {
  }

  function ProductIds(items: seq<WishlistItem>): (ps: seq<int>)
    ensures |ps| == |items|
    ensures forall i :: 0 <= i < |items| ==> ps[i] == items[i].productId
  {
    seq(|items|, i requires 0 <= i < |items| => items[i].productId)
  }

  /** `items.find(i => i.product.productId === productId)`, as an index. */
  function FirstItemFor(items: seq<WishlistItem>, productId: int): (k: Option<nat>)
    ensures k.Some? ==> k.value < |items| && items[k.value].productId == productId
    ensures k.Some? ==> forall j :: 0 <= j < k.value ==> items[j].productId != productId
    ensures k.None? <==> productId !in ProductIds(items)
  {
    FirstIndex(items, (it: WishlistItem) => it.productId == productId)
  }

  /** Which request of the toggle fails, if any: the add/lookup/delete step,
      or the closing refetch. */
  datatype Fault = NoFault | MutationFails | RefetchFails

  /** The backend list after the toggle, the page's membership after it,
      and the effects. */
  datatype Toggled = Toggled(store: seq<WishlistItem>, local: seq<int>, effects: seq<Effect>)

  const ToggleFailed := "Could not update wishlist. Please try again."

  /** The backend list after the mutation step of a toggle. */
  function Mutate(store: seq<WishlistItem>, present: bool, productId: int, freshKey: int): (s: seq<WishlistItem>)
    ensures !present ==> s == store + [WishlistItem(freshKey, productId)]
    ensures present && productId !in ProductIds(store) ==> s == store
    ensures present && productId in ProductIds(store) ==>
      |s| == |store| - 1 &&
      exists k :: 0 <= k < |store| && store[k].productId == productId &&
        (forall j :: 0 <= j < k ==> store[j].productId != productId) &&
        s == store[..k] + store[k + 1..]
  {
    if !present then store + [WishlistItem(freshKey, productId)]
    else match FirstItemFor(store, productId)
      case None => store
      case Some(k) => store[..k] + store[k + 1..]
  }

  /** `handleWishlistToggle`: nothing without a wishlist id; otherwise add
      the product if the local membership lacks it, else delete the first
      backend item for it; then replace the membership by a full refetch. */
  function Toggle(wishlistId: Option<int>, local: seq<int>, productId: int,
                  store: seq<WishlistItem>, freshKey: int, fault: Fault): (r: Toggled)
    ensures !TruthyId(wishlistId) ==> r == Toggled(store, local, [])
    ensures TruthyId(wishlistId) && fault == NoFault ==>
      r.store == Mutate(store, productId in local, productId, freshKey) &&
      r.local == ProductIds(r.store) && r.effects == [Dispatch("wishlistUpdated")]
    ensures TruthyId(wishlistId) && fault == MutationFails ==>
      r == Toggled(store, local, [Alert(ToggleFailed)])
    ensures TruthyId(wishlistId) && fault == RefetchFails ==>
      r.store == Mutate(store, productId in local, productId, freshKey) &&
      r.local == local && r.effects == [Alert(ToggleFailed)]
  {
    if !TruthyId(wishlistId) then Toggled(store, local, [])
    else
      var store' := Mutate(store, productId in local, productId, freshKey);
      match fault
      case NoFault => Toggled(store', ProductIds(store'), [Dispatch("wishlistUpdated")])
      case MutationFails => Toggled(store, local, [Alert(ToggleFailed)])
      case RefetchFails => Toggled(store', local, [Alert(ToggleFailed)])
  }

  function Count(ps: seq<int>, p: int): nat
  {
    multiset(ps)[p]
  }

  lemma ProductIdsAppend(store: seq<WishlistItem>, extra: seq<WishlistItem>)
    ensures ProductIds(store + extra) == ProductIds(store) + ProductIds(extra)
  {
    var l, a, b := ProductIds(store + extra), ProductIds(store), ProductIds(extra);
    assert |l| == |a + b|;
    forall i | 0 <= i < |l|
      ensures l[i] == (a + b)[i]
    {
      if i < |store| {
        assert (store + extra)[i] == store[i];
      } else {
        assert (store + extra)[i] == extra[i - |store|];
      }
    }
  }

  lemma ProductIdsSplit(store: seq<WishlistItem>, k: nat)
    requires k < |store|
    ensures ProductIds(store) == ProductIds(store[..k]) + [store[k].productId] + ProductIds(store[k + 1..])
  {
    var l, a, b := ProductIds(store), ProductIds(store[..k]), ProductIds(store[k + 1..]);
    assert |l| == |a + [store[k].productId] + b|;
    forall i | 0 <= i < |l|
      ensures l[i] == (a + [store[k].productId] + b)[i]
    {
      if i < k {
        assert l[i] == a[i];
      } else if i > k {
        assert l[i] == b[i - k - 1];
      }
    }
  }

  /** Starting from a membership that matches the backend, and with the
      product listed at most once, a successful toggle flips the product's
      membership and leaves every other product's as it was. */
  lemma ToggleFlips(wishlistId: Option<int>, store: seq<WishlistItem>, productId: int, freshKey: int)
    requires TruthyId(wishlistId)
    requires Count(ProductIds(store), productId) <= 1
    ensures var r := Toggle(wishlistId, ProductIds(store), productId, store, freshKey, NoFault);
      (productId in r.local <==> productId !in ProductIds(store)) &&
      forall p :: p != productId ==> (p in r.local <==> p in ProductIds(store))
  {
    var local := ProductIds(store);
    var r := Toggle(wishlistId, local, productId, store, freshKey, NoFault);
    if productId !in local {
      ProductIdsAppend(store, [WishlistItem(freshKey, productId)]);
      assert ProductIds([WishlistItem(freshKey, productId)]) == [productId];
    } else {
      var k := FirstItemFor(store, productId).value;
      ProductIdsSplit(store, k);
      ProductIdsAppend(store[..k], store[k + 1..]);
      var before := ProductIds(store[..k]);
      var after := ProductIds(store[k + 1..]);
      assert r.store == store[..k] + store[k + 1..];
      assert r.local == before + after;
      assert multiset(local) == multiset(before) + multiset{productId} + multiset(after);
      assert multiset(r.local) == multiset(local) - multiset{productId};
      assert productId !in multiset(r.local);
      forall p | p != productId
        ensures p in r.local <==> p in local
      {
        assert p in multiset(r.local) <==> p in multiset(local);
      }
    }
  }

  /** With the product listed twice, removal deletes only the first item and
      the refetched membership still contains the product. */
  lemma DuplicateSurvivesRemoval()
    ensures var store := [WishlistItem(1, 5), WishlistItem(2, 5)];
      var r := Toggle(Some(9), [5], 5, store, 3, NoFault);
      r.store == [WishlistItem(2, 5)] && r.local == [5]
  {
    var store := [WishlistItem(1, 5), WishlistItem(2, 5)];
    assert FirstItemFor(store, 5) == Some(0);
    assert store[..0] + store[1..] == [WishlistItem(2, 5)];
  }

  datatype Request =
    | GetWishlistsByUser(userId: int)
    | GetWishlistItems(wishlistId: Option<int>)
    | DeleteWishlistItem(key: int)

  /** What loading the wishlist page leaves behind: the requests issued, the
      new item list (`None` keeps the old one) and the error message
      (`None` clears it). */
  datatype Loaded = Loaded(requests: seq<Request>, items: Option<seq<WishlistItem>>, error: Option<string>)

  const LoadFailed := "Failed to load wishlist. Please try again later."

  /** `fetchWishlist` of the wishlist page. `listing` is the by-user body
      (`None` for a null or non-list body); `items` is the reply of the
      item request, read only when that request is issued. */
  function FetchWishlist(userId: int, listing: Response<Option<seq<WishlistRecord>>>,
                         items: Response<seq<WishlistItem>>): (r: Loaded)
    ensures |r.requests| >= 1 && r.requests[0] == GetWishlistsByUser(userId)
    ensures listing.Err? ==> r.requests == [GetWishlistsByUser(userId)]
    ensures listing.Ok? && (listing.body.None? || listing.body.value == []) ==>
      r == Loaded([GetWishlistsByUser(userId)], Some([]), None)
    ensures listing.Ok? && listing.body.Some? && listing.body.value != [] ==>
      r.requests == [GetWishlistsByUser(userId), GetWishlistItems(WishlistPageId(listing.body.value[0]))]
    ensures r.items.Some? <==>
      listing.Ok? && (listing.body.None? || listing.body.value == [] || items.Ok?)
    ensures r.items.Some? ==> r.error.None?
    ensures r.items.None? ==> r.error == Some(LoadFailed)
    ensures r.items.Some? && r.items.value != [] ==> items.Ok? && r.items.value == items.body
    ensures listing.Ok? && listing.body.Some? && listing.body.value != [] && items.Ok? ==>
      r.items == Some(items.body)
  {
    var first := [GetWishlistsByUser(userId)];
    match listing
    case Err(_) => Loaded(first, None, Some(LoadFailed))
    case Ok(body) =>
      if body.None? || body.value == [] then Loaded(first, Some([]), None)
      else
        var rs := first + [GetWishlistItems(WishlistPageId(body.value[0]))];
        match items
        case Err(_) => Loaded(rs, None, Some(LoadFailed))
        case Ok(list) => Loaded(rs, Some(list), None)
  }

  /** What `handleRemove` does: the delete request, then either a full
      refetch for the signed-in user or an alert. */
  datatype Removed = Removed(requests: seq<Request>, refetchFor: Option<int>, effects: seq<Effect>)

  const RemoveFailed := "Failed to remove item from wishlist. Please try again."

  function Remove(user: Option<int>, key: int, deleted: Response<()>): (r: Removed)
    ensures r.requests == [DeleteWishlistItem(key)]
    ensures r.refetchFor.Some? <==> deleted.Ok? && user.Some?
    ensures r.refetchFor.Some? ==> r.refetchFor == user
    ensures r.effects == [] <==> deleted.Ok?
    ensures deleted.Err? ==> r.effects == [Alert(RemoveFailed)]
  {
    match deleted
    case Err(_) => Removed([DeleteWishlistItem(key)], None, [Alert(RemoveFailed)])
    case Ok(_) => Removed([DeleteWishlistItem(key)], user, [])
  }

  /** The backend's item list after deleting the item addressed by `key`. */
  function DeleteKey(store: seq<WishlistItem>, key: int): (s: seq<WishlistItem>)
    ensures forall i :: 0 <= i < |s| ==> s[i].key != key && s[i] in store
    ensures forall it :: it in store && it.key != key ==> it in s
    ensures |s| <= |store|
  {
    if store == [] then []
    else if store[0].key == key then DeleteKey(store[1..], key)
    else [store[0]] + DeleteKey(store[1..], key)
  }

  /** A successful removal by a signed-in user refetches that user's
      wishlist. When the backend has deleted the item, the list the page
      then shows holds exactly the items it held before the removal except
      those addressed by the removed key. */
  lemma RemoveThenRefetch(userId: int, key: int, listing: seq<WishlistRecord>, store: seq<WishlistItem>)
    requires listing != []
    ensures var rm := Remove(Some(userId), key, Ok(()));
      var after := DeleteKey(store, key);
      var l := FetchWishlist(rm.refetchFor.value, Ok(Some(listing)), Ok(after));
      rm.refetchFor == Some(userId) && l.items.Some? && l.error.None? &&
      forall it :: it in l.items.value <==> it in store && it.key != key
  {
    var after := DeleteKey(store, key);
    forall it | it in after
      ensures it in store && it.key != key
    {
      var i :| 0 <= i < |after| && after[i] == it;
    }
  }
}

=== FILE: wrappers.dfy ===
/** Shared value types for the Swiftthrift web client model.

    Every HTTP exchange of the client is abstracted to a `Response`: either the
    decoded body, or a `Failure` carrying the strings the page code reads off a
    rejected axios/fetch promise. Browser side effects (navigation, alerts,
    window events) are emitted as `Effect` values instead of being performed.
 */
module Wrappers {

  datatype Option<+T> = None | Some(value: T)

  /** JavaScript truthiness of an optional numeric id: `undefined`, `null`
      and `0` are all falsy. */
  predicate TruthyId(id: Option<int>)
  {
    id.Some? && id.value != 0
  }

  /** What a rejected request exposes to the page code:
      `message` is `error.message`, `dataText` is `error.response?.data`
      rendered as text and `dataMessage` is `error.response?.data?.message`;
      the empty string stands for an absent value. */
  datatype Failure = Failure(message: string, dataText: string, dataMessage: string)

  datatype Response<+T> = Ok(body: T) | Err(failure: Failure)

  /** The index of the first element of `s` satisfying `p`, the search behind
      `Array.prototype.find`, `findIndex` and `String.prototype.indexOf`. */
  function FirstIndex<T>(s: seq<T>, p: T -> bool): (k: Option<nat>)
    ensures k.Some? ==> k.value < |s| && p(s[k.value])
    ensures k.Some? ==> forall j :: 0 <= j < k.value ==> !p(s[j])
    ensures k.None? <==> forall j :: 0 <= j < |s| ==> !p(s[j])
  {
    if s == [] then None
    else if p(s[0]) then Some(0)
    else
      match FirstIndex(s[1..], p)
      case None => None
      case Some(k) => Some(k + 1)
  }

  /** Browser effects a handler emits, in the order it emits them. */
  datatype Effect =
    | Navigate(path: string)
    | Alert(text: string)
    | Dispatch(event: string)
}
